=== FILE: README.md ===
# HRM employee records — a Dafny model

This project models the core of a small HR management application. An
Express/MongoDB server keeps employee records and an append-only audit log. A
React client edits those records. The model covers these parts:

- **Probation check.** This is the bulk update that promotes employees whose
  probation window has ended from "Probation" to "Permanent". There are two
  drivers: the daily cron job (`scheduler.ts`) and the serverless endpoint
  (`probation-check.ts`).
- **Mutation gateway.** These are the create, update, delete and
  attachment-upload routes (`employeeRoutes.ts`). Each one is a pure
  transition of the record store and the audit log. The middleware they run
  through is modelled too: authentication and authorization (`auth.ts`) and
  the multer upload stage (`upload.ts`).
- **Schemas.** The Employee and AuditLog schemas are covered: required
  fields, defaults, the unique `employeeId`, and the shallow merge of an
  update body.
- **Audit query.** This is the filter, newest-first sort and 100-entry limit
  (`auditRoutes.ts`).
- **Client helpers.** These are pure: the dropdown's option normalisation and
  label lookup (`CustomSelect.tsx`), and the wizard's step clamping, row
  add/remove, change routing and edit-mode normalisation
  (`AddEmployeeWizard.tsx`). The API URL builders (`api.ts`) are also
  included.

Some things come in as parameters rather than being modelled directly:

- Time is milliseconds since the epoch. One clock reading per request is
  an argument, and it stands for every `Date.now()` of that request (see
  "## Left out").
- A failing employee or audit collection is a boolean in `Env`. In the cron
  drivers it is a `fault` value.
- The upload's random file-name suffix and the upload directory are
  arguments.

One module per source file:

| file | module | source |
|---|---|---|
| common.dfy | `Common` | shared `Option`, JSON values, JS truthiness, `startsWith`, `split(c)[0]`, `lastIndexOf` |
| employee.dfy | `EmployeeModel` | server/src/models/Employee.ts |
| audit_log.dfy | `AuditLogModel` | server/src/models/AuditLog.ts |
| auth.dfy | `Auth` | server/src/middleware/auth.ts |
| upload.dfy | `Upload` | server/src/middleware/upload.ts |
| probation.dfy | `ProbationCheck` | server/src/services/scheduler.ts, server/api/cron/probation-check.ts |
| employee_routes.dfy | `EmployeeRoutes` | server/src/routes/employeeRoutes.ts |
| gateway_properties.dfy | `GatewayProperties` | properties across the gateway, the schema and the probation rule |
| audit_routes.dfy | `AuditRoutes` | server/src/routes/auditRoutes.ts |
| custom_select.dfy | `CustomSelect` | client/src/components/UI/CustomSelect.tsx |
| wizard.dfy | `Wizard` | client/src/pages/PIM/AddEmployeeWizard.tsx |
| api.dfy | `Api` | client/src/utils/api.ts |

### Behaviour worth knowing

- **Create.** A create request in "Probation" always gets
  `probationEndDate = now + 90 days`, replacing any value the caller sent.
  In any other status the field is set to null. `autoUpdated` is stored as
  sent: it is true only when the body says `true`.
- **Update into "Probation".** An update that moves a record into
  "Probation" recomputes the end date but does not itself touch
  `autoUpdated`. `Object.assign` replaces the whole `employmentStatus`
  sub-document, so the flag ends up false unless the request sends
  `autoUpdated: true` (`GatewayProperties.ReentryRestartsWindow`).
- **Promotion audit.** Neither probation driver writes an audit entry;
  promotions leave the audit log unchanged.

## Model

| member | source | states |
|---|---|---|
| EmployeeModel.Keys | server/src/routes/employeeRoutes.ts:124 | the keys recorded for an UPDATE are exactly the top-level keys of the request body, including keys the schema does not declare |
| EmployeeModel.UnknownKeysOnlyListed | server/src/routes/employeeRoutes.ts:121-124 | a body key the schema does not declare changes neither the cast nor the merged document, yet is listed among the body's keys |
| EmployeeModel.CastStatus | server/src/models/Employee.ts:87-92 | a cast `employmentStatus` keeps status and dates as sent; `autoUpdated` (default false) is true only when sent as `true` |
| EmployeeModel.CastAttachment | server/src/models/Employee.ts:124-129 | an attachment keeps its three strings; `uploadDate` defaults to the current time |
| EmployeeModel.CastEmployee | server/src/models/Employee.ts:68-130 | a document cast from a body takes the required strings, the cast status, the cast attachments (or `[]`) and the other fields from the body |
| EmployeeModel.Merge | server/src/routes/employeeRoutes.ts:121 | shallow merge: each key the body carries replaces the stored value wholesale (status and attachments by their cast values); absent keys keep the stored value |
| EmployeeModel.MergeEmptyIsIdentity | server/src/routes/employeeRoutes.ts:121 | merging an empty body leaves the record unchanged |
| EmployeeModel.MergeOverwritesFully | server/src/routes/employeeRoutes.ts:121 | a body carrying every field (at least every extra key either record has) produces the same record whatever was stored before |
| EmployeeModel.Save | server/src/models/Employee.ts:69-73 | save succeeds iff `employeeId`, `firstName` and `lastName` are non-empty, the store is up, and the id is free or is the record's own; it then stores the record under its id and keeps every other record |
| EmployeeModel.SavePreservesValid | server/src/models/Employee.ts:69-73 | a successful save keeps every record under its own id with its required fields |
| AuditLogModel.Append | server/src/models/AuditLog.ts:13-20 | appending adds exactly one entry, timestamped now, when the store is up and the required fields are non-empty; otherwise the log is unchanged; earlier entries never change |
| AuditLogModel.ExtendsTransitive | server/src/models/AuditLog.ts:13-20 | append-only growth composes across successive writes |
| Auth.Authenticate | server/src/middleware/auth.ts:15-31 | with or without a token, the request gets the admin identity `admin-123` and proceeds |
| Auth.Authorize | server/src/middleware/auth.ts:33-45 | 401 "Unauthorized" iff there is no user, 403 "Forbidden" iff the role is not listed, otherwise proceed |
| Auth.AuthenticatedAdminPasses | server/src/middleware/auth.ts:15-45 | after `authenticate`, every role list containing "admin" lets the request through |
| Auth.AuthenticatedNonAdminForbidden | server/src/middleware/auth.ts:15-45 | after `authenticate`, every role list without "admin" answers 403 |
| Auth.PerformedBy | server/src/routes/employeeRoutes.ts:71 | the audit actor is the caller's userId, or "unknown" when it is missing or empty; never empty |
| Upload.FileFilter | server/src/middleware/upload.ts:26-36 | a file is accepted iff its type is `image/…`, PDF, DOC or DOCX; otherwise the fixed error message is returned |
| Upload.FilterDependsOnlyOnMime | server/src/middleware/upload.ts:26-36 | the verdict depends on the MIME type alone |
| Upload.ImagesAccepted | server/src/middleware/upload.ts:28 | every `image/` subtype is accepted |
| Upload.OthersRejected | server/src/middleware/upload.ts:28-35 | every other type is rejected with the error message |
| Upload.ExtName | server/src/middleware/upload.ts:22 | the extension is empty or a '.' followed by no further '.' or '/'; it is the tail of the base name; it is non-empty iff the base name has a '.' that is not its first character and the name is not ".." |
| Upload.ExtNameOfPlainName | server/src/middleware/upload.ts:22 | `stem.ext` yields `.ext` |
| Upload.ExtNameWithoutDot | server/src/middleware/upload.ts:22 | a name without '.' has no extension |
| Upload.StoredName | server/src/middleware/upload.ts:20-23 | the stored name is the field name, '-', the suffix, then the original extension |
| Upload.StoredNameInjective | server/src/middleware/upload.ts:20-23 | for the same field and original name, different suffixes give different stored names |
| Upload.Receive | server/src/middleware/upload.ts:16-44 | a file is stored iff it comes in the expected field, its type is allowed and it is at most 10 MiB; a wrong field is refused first, then a wrong type, then the size; the path is the directory plus the stored name |
| ProbationCheck.PromoteRecord | server/src/services/scheduler.ts:27-32 | a promoted record is "Permanent", flagged, and otherwise identical |
| ProbationCheck.Selected | server/src/services/scheduler.ts:21-26 | exactly the records in "Probation" whose end date is present and not after now and which are not yet flagged |
| ProbationCheck.Promote | server/src/services/scheduler.ts:21-33 | every selected record is promoted, every other record is untouched, no record is added or removed, and the count equals the number selected |
| ProbationCheck.NoneEligibleAfterPromote | server/src/services/scheduler.ts:25 | after one run, nothing is eligible at the same instant |
| ProbationCheck.PromoteIdempotent | server/src/services/scheduler.ts:25 | a second run at the same time changes nothing and counts zero |
| ProbationCheck.SelectedMonotoneInTime | server/src/services/scheduler.ts:23 | a later run selects everything an earlier run would |
| ProbationCheck.CatchUp | server/src/services/scheduler.ts:15-33 | a run at t1 followed by one at t2 ≥ t1 equals a single run at t2 |
| ProbationCheck.BoundaryIsPromoted | server/src/services/scheduler.ts:23 | in any store, a record in "Probation" whose end date equals now and which is not flagged is promoted (`$lte`); alone, it is counted once |
| ProbationCheck.NoEndDateNeverPromoted | server/src/services/scheduler.ts:23 | a record without an end date is never promoted |
| ProbationCheck.PromotePreservesValid | server/src/services/scheduler.ts:21-33 | promotion keeps the store keyed and valid |
| ProbationCheck.CronTick | server/src/services/scheduler.ts:15-41 | a successful run logs exactly "Updated N" with N the number of selected records when N > 0, and nothing when none is selected; a failure is logged, leaves the store unchanged and is not rethrown |
| ProbationCheck.Handle | server/api/cron/probation-check.ts:9-47 | non-GET gives 405 and no change; a failure gives 500 with its message; otherwise 200 "Probation check completed" with the count |
| ProbationCheck.SameOutcomeBothDrivers | server/api/cron/probation-check.ts:25-37 | both drivers leave the same store |
| ProbationCheck.RetriggerReportsZero | server/api/cron/probation-check.ts:39-42 | calling the endpoint again right away reports 0 and changes nothing |
| EmployeeRoutes.RecordAudit | server/src/routes/employeeRoutes.ts:11-23 | the audit write is best effort: it appends exactly the "Employee" entry when the log is up, and otherwise leaves the log unchanged |
| EmployeeRoutes.CreateStatus | server/src/routes/employeeRoutes.ts:62-65 | on create, `probationEndDate` is now + 90 days iff the requested status is "Probation", otherwise null; the other status fields are as sent |
| EmployeeRoutes.Create | server/src/routes/employeeRoutes.ts:37-77 | 401/403 from authorize; 400 with the state unchanged when validation, the store or the unique index fails, carrying that failure (MissingRequired, StoreUnavailable or DuplicateKey); 201 iff saved, with the record built from the body (attachments cast, or `[]`), stored under its id and one CREATE entry naming the employee; the log only grows |
| EmployeeRoutes.AdjustUpdate | server/src/routes/employeeRoutes.ts:116-119 | the update body gets a fresh end date only when it moves the status into "Probation" from something else; otherwise it is used as sent |
| EmployeeRoutes.Update | server/src/routes/employeeRoutes.ts:108-130 | 401/403; 404 with no change for an unknown id; 500 with no change when the store is down (StoreUnavailable) or the save is refused (MissingRequired when a required string is empty, else DuplicateKey); 200 iff the merged record validates, with the shallow-merged record (sent attachments cast and replacing the stored ones) replacing the old one and one UPDATE entry listing the sent keys |
| EmployeeRoutes.Delete | server/src/routes/employeeRoutes.ts:132-146 | admins only; 404 with no change for an unknown id; 500 StoreUnavailable with no change when the store is down; 200 iff the record existed, which is then removed, with one DELETE entry |
| EmployeeRoutes.Attach | server/src/routes/employeeRoutes.ts:84-105 | 404 for an unknown id; 500 with no change when the store is down or the save is refused (MissingRequired or DuplicateKey); 200 iff the record exists and its save succeeds, and then one attachment (type default "Document", original name, stored path, now) is appended and one UPLOAD_DOC entry is written |
| EmployeeRoutes.UploadAttachment | server/src/routes/employeeRoutes.ts:80-82 | no file gives 400 "No file uploaded"; a file in a field other than `file`, or one multer otherwise rejects, gives 500 and no change; otherwise the stored file is attached |
| GatewayProperties.CreatePreservesValid | server/src/routes/employeeRoutes.ts:60-68 | a create keeps the store keyed and every record valid |
| GatewayProperties.UpdatePreservesValid | server/src/routes/employeeRoutes.ts:120-122 | an update, even one that renames the record, keeps the store keyed and every record valid |
| GatewayProperties.AttachPreservesValid | server/src/routes/employeeRoutes.ts:95-97 | attaching a file keeps the store keyed and every record valid |
| GatewayProperties.MutationsPreserveValid | server/src/routes/employeeRoutes.ts:60-130 | create, update, delete and upload all keep the store keyed and every record valid |
| GatewayProperties.CreateAuditIsBestEffort | server/src/routes/employeeRoutes.ts:70-73 | a failed CREATE entry changes neither the 201 reply nor the stored record |
| GatewayProperties.UpdateAuditIsBestEffort | server/src/routes/employeeRoutes.ts:123-126 | a failed UPDATE entry changes neither the reply nor the store |
| GatewayProperties.AttachAuditIsBestEffort | server/src/routes/employeeRoutes.ts:98-101 | a failed UPLOAD_DOC entry changes neither the reply nor the store |
| GatewayProperties.AuditIsBestEffort | server/src/routes/employeeRoutes.ts:20-22 | an audit failure changes neither the reply nor the employee store |
| GatewayProperties.OneEntryPerSuccess | server/src/routes/employeeRoutes.ts:68-140 | with the log up, each create, update, delete or attachment adds exactly one entry on success and none on failure |
| GatewayProperties.AuthenticatedCallersPass | server/src/middleware/auth.ts:15-45 | requests that went through `authenticate` are never refused with 401 or 403 |
| GatewayProperties.CreateThenDeleteRestoresStore | server/src/routes/employeeRoutes.ts:60-68 | deleting a record just created restores the store |
| GatewayProperties.CreatedProbationPromotedAfterWindow | server/src/routes/employeeRoutes.ts:64 | a record created in "Probation" becomes eligible exactly 90 days after creation |
| GatewayProperties.CreatedOtherStatusNeverPromoted | server/src/routes/employeeRoutes.ts:64 | a record created in another status is never eligible |
| GatewayProperties.ReentryRestartsWindow | server/src/routes/employeeRoutes.ts:117-121 | moving back into "Probation" restarts the 90-day window; the record is eligible again iff the body did not send `autoUpdated: true` |
| AuditRoutes.Filter | server/src/routes/auditRoutes.ts:10-17 | keeps exactly the entries matching every truthy parameter, each as often as it occurs |
| AuditRoutes.Insert | server/src/routes/auditRoutes.ts:18 | inserting into a newest-first sequence keeps it newest first and adds exactly that entry |
| AuditRoutes.SortNewestFirst | server/src/routes/auditRoutes.ts:18 | the result is newest first and a permutation of the input |
| AuditRoutes.Find | server/src/routes/auditRoutes.ts:8-25 | returns only matching entries, newest first, min(100, matches) of them, drawn from the matches; any match left out is no newer than every entry returned |
| AuditRoutes.Get | server/src/routes/auditRoutes.ts:8-25 | a store failure answers 500 with its message; otherwise the reply is the query's result |
| AuditRoutes.MostRecentPrefix | server/src/routes/auditRoutes.ts:18-19 | a prefix of a newest-first sequence holds its newest entries |
| AuditRoutes.NoFilterReturnsNewest | server/src/routes/auditRoutes.ts:11-19 | with no parameters the result is the newest min(100, n) entries of the whole log |
| AuditRoutes.MatchesWidening | server/src/routes/auditRoutes.ts:13-15 | dropping a parameter never excludes an entry |
| AuditRoutes.EmptyParameterIgnored | server/src/routes/auditRoutes.ts:13-15 | an empty parameter is the same as an absent one |
| CustomSelect.NormalizeOne | client/src/components/UI/CustomSelect.tsx:48 | a string becomes value = label = itself at level 0; an object keeps value and label, and a missing level becomes 0 |
| CustomSelect.Normalize | client/src/components/UI/CustomSelect.tsx:47-49 | normalisation is element-wise, keeping length and order |
| CustomSelect.NormalizeFixesNormalOptions | client/src/components/UI/CustomSelect.tsx:48 | normalising options that are already objects with a level changes nothing |
| CustomSelect.FirstIndex | client/src/components/UI/CustomSelect.tsx:51 | finds the first option with the value, or none iff no option has it |
| CustomSelect.SelectedLabel | client/src/components/UI/CustomSelect.tsx:23-51 | shows the label of the first option with the selected value; shows the placeholder when there is none or that label is empty |
| CustomSelect.Init | client/src/components/UI/CustomSelect.tsx:25-26 | starts closed, with the `value` prop selected, or "" when it is missing or empty |
| CustomSelect.HandleSelect | client/src/components/UI/CustomSelect.tsx:40-44 | selects the value, passes exactly that value to `onChange` when present, and closes |
| CustomSelect.Toggle | client/src/components/UI/CustomSelect.tsx:59 | clicking the field flips the open state and keeps the selection |
| CustomSelect.ChosenOptionIsDisplayed | client/src/components/UI/CustomSelect.tsx:40-51 | choosing an option (first with its value, non-empty label) displays its label |
| CustomSelect.PlaceholderRowShowsPlaceholder | client/src/components/UI/CustomSelect.tsx:51-74 | choosing the placeholder row selects "" and shows the placeholder again |
| CustomSelect.PaddingLeft | client/src/components/UI/CustomSelect.tsx:82 | level 0 is indented 16 px and each further level adds 16 px |
| Wizard.Back | client/src/pages/PIM/AddEmployeeWizard.tsx:318 | Back goes one step down but never below 1 |
| Wizard.Next | client/src/pages/PIM/AddEmployeeWizard.tsx:327 | Next goes one step up but never above 4 |
| Wizard.NavigationStaysInRange | client/src/pages/PIM/AddEmployeeWizard.tsx:318-327 | from step 1 (or any step in range), any sequence of Back/Next clicks keeps the step in [1, 4] |
| Wizard.BackUndoesNext | client/src/pages/PIM/AddEmployeeWizard.tsx:318-327 | Back undoes Next below step 4, and Next undoes Back above step 1 |
| Wizard.InitialForm | client/src/pages/PIM/AddEmployeeWizard.tsx:15-42 | the form starts in "Probation", not auto-updated, with one blank contact, one blank dependent and no files |
| Wizard.SetInRow | client/src/pages/PIM/AddEmployeeWizard.tsx:90-97 | only the sub-field of row `index` changes; an out-of-range or non-object row throws |
| Wizard.HandleChange | client/src/pages/PIM/AddEmployeeWizard.tsx:81-101 | a named section changes only `[name]` in that section; a row array with an index and a sub-field changes only that row; anything else sets a top-level field |
| Wizard.SectionChangeIsLocal | client/src/pages/PIM/AddEmployeeWizard.tsx:84-85 | an address change sets that one entry and leaves everything else unchanged |
| Wizard.AddArrayItem | client/src/pages/PIM/AddEmployeeWizard.tsx:109-115 | adds exactly one blank row to the named array and changes nothing else |
| Wizard.RemoveAt | client/src/pages/PIM/AddEmployeeWizard.tsx:120 | drops exactly the element at the index and keeps the rest in order; an out-of-range index changes nothing |
| Wizard.RemoveArrayItem | client/src/pages/PIM/AddEmployeeWizard.tsx:117-122 | removes the row from the named array only |
| Wizard.RemoveUndoesAdd | client/src/pages/PIM/AddEmployeeWizard.tsx:109-122 | removing the row just added gives back the form |
| Wizard.FindBy | client/src/pages/PIM/AddEmployeeWizard.tsx:51 | returns the first record whose key equals the id, or none iff no record matches |
| Wizard.Lookup | client/src/pages/PIM/AddEmployeeWizard.tsx:51 | looks up by `employeeId` first and by `_id` only when no `employeeId` matches |
| Wizard.DateInput | client/src/pages/PIM/AddEmployeeWizard.tsx:61-69 | a date string is cut before its first 'T': the result is a prefix without 'T', and when it is shorter than the string the next character is 'T'; missing or empty becomes "" |
| Wizard.DateInputIdempotent | client/src/pages/PIM/AddEmployeeWizard.tsx:61-69 | cutting an already cut date changes nothing |
| Common.BeforeIdempotent | client/src/pages/PIM/AddEmployeeWizard.tsx:69 | `split('T')[0]` applied twice equals applied once |
| Wizard.IsoDateTruncated | client/src/pages/PIM/AddEmployeeWizard.tsx:69 | `date + "T" + time` becomes `date` |
| Wizard.EditStatus | client/src/pages/PIM/AddEmployeeWizard.tsx:63-65 | a string status becomes `{status, startDate: "", autoUpdated: false}`; an object is taken as is; otherwise the form's value is kept |
| Wizard.RowsOr | client/src/pages/PIM/AddEmployeeWizard.tsx:66-67 | a non-empty array from the record replaces the rows; otherwise the rows are kept |
| Wizard.EditForm | client/src/pages/PIM/AddEmployeeWizard.tsx:54-70 | the record's top-level fields override the form's; address, status and rows are rebuilt as above; job info is the form's merged with the record's; both dates are cut to their date part |
| Wizard.LegacyStatusNormalised | client/src/pages/PIM/AddEmployeeWizard.tsx:63-64 | a record whose status is a bare string opens with that status, an empty start date and no auto-update |
| Api.BaseUrl | client/src/utils/api.ts:2 | the base URL is `VITE_API_URL` when set and non-empty, else `http://localhost:5000` |
| Api.Employees | client/src/utils/api.ts:6 | the collection URL is the base followed by `/api/employees` |
| Api.AuditLogs | client/src/utils/api.ts:7 | the audit URL is the base followed by `/api/audit-logs` |
| Api.Employee | client/src/utils/api.ts:10 | the record URL is the collection URL, '/', then the id |
| Api.EmployeeAttachments | client/src/utils/api.ts:11 | the attachments URL is the record URL followed by `/attachments` |
| Api.IdOf | client/src/utils/api.ts:10 | reads the id back off a record URL, and only off one |
| Api.IdRoundTrip | client/src/utils/api.ts:10 | reading back a built record URL gives its id |
| Api.EmployeeInjective | client/src/utils/api.ts:10 | different ids give different record URLs |

## Left out

- **Database I/O and concurrency.** Each request and each probation run is
  one atomic step on an immutable store; interleavings and partial
  `updateMany` progress are not modelled. A failing store is a boolean
  (`Env.storeUp`, `Env.auditUp`) or a `fault` message, and what the driver
  reports is taken from it.
- **Clock, randomness and filesystem.** The clock, `Math.random`, the
  upload directory, `fs.mkdirSync` and the disk write are parameters or
  omitted; the stored-name suffix is an argument.
- **Scheduling and deployment gating.** The cron expression
  (`0 0 * * *`), the `VERCEL`/`NODE_ENV`/`ENABLE_SCHEDULER` switches, and
  `mongoose.connect` in the serverless handler are not modelled.
- **GET /api/employees.** The list route (server/src/routes/employeeRoutes.ts:26-34)
  is a plain read with no state change; it is not modelled.
- **Multipart on create.** `upload.array('attachments')` on the create
  route stores files but the handler never reads them; it is not
  modelled.
- **Unknown and null fields.** A body key the schema does not declare is
  carried by name only (`Payload.unknown`): strict mode drops it from the
  document, and it appears only among the UPDATE entry's keys. Keys Mongoose
  itself manages (`_id`, `__v`, `createdAt`, `updatedAt`) are treated the
  same way, without their own effects on the write. An explicit `null` for
  a top-level typed field is not modelled.
- **Timestamps.** The `createdAt`/`updatedAt` fields from
  `timestamps: true` are not modelled.
- **Sub-document casting.** The fields in `other` (address, job info,
  contacts, dependents, education, history, personal strings) are carried
  as opaque JSON, without Mongoose's per-path casting.
- AuditLogModel.Append: `details` for UPDATE holds the set of keys, not the
  ordered list `Object.keys` gives, because key order carries no meaning
  for the log's readers.
- AuditRoutes.Find: the order among entries with equal timestamps is not
  stated, because MongoDB does not fix it; the model sorts stably, but the
  contract promises only what every valid order has in common.
- AuditRoutes.Find: query parameters are modelled as strings only. A
  repeated parameter (an array, which Mongoose turns into `$in`) and a
  bracketed one (an object such as `targetId[$ne]=x`, which Mongo reads as
  an operator) are not modelled, because their matching rules are Mongo's
  query language rather than this route's code.
- EmployeeRoutes.UploadAttachment: one file part is modelled; a second part
  in the `file` field (also refused by multer with 500) is not. The body
  of a multer rejection is Express's default HTML error page, because the
  server installs no error middleware; the model keeps only its status and
  the error's message.
- EmployeeRoutes.Create: one clock reading, `env.now`, stands for the
  several reads of the clock in a request: the probation end date, the
  default `uploadDate` of an attachment, `new Date()` in the attachment
  handler, and the audit entry's default timestamp, which is taken after
  the save has completed. The model therefore makes a CREATE entry's
  timestamp exactly the new record's end date minus 90 days, and likewise
  for UPDATE after a move into Probation. In the running code these differ
  by the time the save and the audit write take. The same holds for
  EmployeeRoutes.Update, EmployeeRoutes.Attach and EmployeeModel.CastAttachment.
- Upload.Receive: the stored path is the directory, '/', then the stored
  name. That is what `path.join` gives for a normalised directory without
  a trailing '/', which both of the app's upload directories are; the
  normalisation `path.join` applies to other directories is not modelled.
- **Client rendering and requests.** React rendering, routing, the
  document-level click listener in the dropdown, `fetch` calls,
  `handleFileChange`, and the wizard's submission are not modelled.
  `AddEmployee.tsx` is not mounted by the app and is not part of this
  model.
- Wizard.HandleChange: the row update writes into the row object shared
  with the previous state (a stale-closure mutation); the model treats it
  as a fresh copy, which gives the same next state in a sequential run.
- Wizard.EditForm: values of an unexpected shape in the fetched record
  (a non-string truthy date, a non-object address or job info, a
  non-array contact list) are treated as missing, where the source would
  throw or spread them character by character; a `files` key in the record
  is ignored.
- **Number semantics.** `CustomSelect.NormalizeOne` and `PaddingLeft` use
  integers, so `NaN` and fractional levels are not modelled.

=== FILE: api.dfy ===
/** The client's endpoint builders (client/src/utils/api.ts). The build-time
    variable `VITE_API_URL` is a parameter. */
module Api {
  import opened Common

  const DefaultBase: string := "http://localhost:5000"
  const EmployeesPath: string := "/api/employees"
  const AuditLogsPath: string := "/api/audit-logs"
  const AttachmentsPath: string := "/attachments"

  /** `VITE_API_URL || 'http://localhost:5000'`. */
  function BaseUrl(env: Option<string>): (b: string)
    ensures Truthy(env) ==> b == env.value
    ensures !Truthy(env) ==> b == DefaultBase
    ensures b != ""
  {
    OrElse(env, DefaultBase)
  }

  function Employees(base: string): (u: string)
    ensures StartsWith(u, base) && u[|base|..] == EmployeesPath
  {
    base + EmployeesPath
  }

  function AuditLogs(base: string): (u: string)
    ensures StartsWith(u, base) && u[|base|..] == AuditLogsPath
  {
    base + AuditLogsPath
  }

  /** `${base}/api/employees/${id}`: the collection URL, a slash, the id. */
  function Employee(base: string, id: string): (u: string)
    ensures StartsWith(u, Employees(base) + "/")
    ensures u[|Employees(base)| + 1..] == id
  {
    base + EmployeesPath + "/" + id
  }

  /** `${base}/api/employees/${id}/attachments`. */
  function EmployeeAttachments(base: string, id: string): (u: string)
    ensures StartsWith(u, Employee(base, id))
    ensures u[|Employee(base, id)|..] == AttachmentsPath
  {
    base + EmployeesPath + "/" + id + AttachmentsPath
  }

  /** The id a record URL was built from, read back off the URL. */
  function IdOf(base: string, u: string): (id: Option<string>)
    ensures id.Some? <==> StartsWith(u, Employees(base) + "/")
    ensures id.Some? ==> Employee(base, id.value) == u
  {
    var prefix := Employees(base) + "/";
    if StartsWith(u, prefix) then
      assert u == prefix + u[|prefix|..];
      Some(u[|prefix|..])
    else None
  }

  /** Building a record URL and reading it back gives the same id, so two
      different ids never share a URL. */
  lemma IdRoundTrip(base: string, id: string)
    ensures IdOf(base, Employee(base, id)) == Some(id)
  {
    var prefix := Employees(base) + "/";
    assert Employee(base, id) == prefix + id;
    assert Employee(base, id)[|prefix|..] == id;
  }

  lemma EmployeeInjective(base: string, a: string, b: string)
    requires Employee(base, a) == Employee(base, b)
    ensures a == b
  {
    IdRoundTrip(base, a);
    IdRoundTrip(base, b);
  }
}

=== FILE: audit_log.dfy ===
/** The audit-log entry (server/src/models/AuditLog.ts) and the only write
    the system ever performs on the log: appending one entry. */
module AuditLogModel {
  import opened Common
  import EmployeeModel

  /** The `details` payloads the system writes. */
  datatype Details =
    | NoDetails                                   // field absent
    | FullName(name: string)                      // CREATE: { name }
    | Updates(keys: set<EmployeeModel.Key>)       // UPDATE: { updates: Object.keys(body) }
    | EmptyDetails                                // DELETE: {}
    | UploadedFile(file: string)                  // UPLOAD_DOC: { file }

  datatype AuditEntry = AuditEntry(
    action: string,
    targetResource: string,
    targetId: Option<string>,
    performedBy: string,
    details: Details,
    timestamp: Millis)

  /** The log is a sequence in insertion order. */
  type AuditLog = seq<AuditEntry>

  /** `action`, `targetResource` and `performedBy` are required strings
      (AuditLog.ts:14-15, 17); Mongoose rejects them when empty. */
  predicate Valid(e: AuditEntry) {
    e.action != "" && e.targetResource != "" && e.performedBy != ""
  }

  /** `AuditLog.create({...})` with `timestamp` defaulting to `now`
      (AuditLog.ts:19); the write is refused when a required field is
      empty or when the log's store is unavailable. */
  function Append(log: AuditLog, action: string, targetResource: string, targetId: Option<string>,
                  performedBy: string, details: Details, now: Millis, up: bool): (r: AuditLog)
    ensures |r| == |log| || |r| == |log| + 1
    ensures r[..|log|] == log
    ensures |r| == |log| + 1 <==> up && action != "" && targetResource != "" && performedBy != ""
    ensures |r| == |log| + 1 ==>
      r[|log|] == AuditEntry(action, targetResource, targetId, performedBy, details, now) && Valid(r[|log|])
  {
    var e := AuditEntry(action, targetResource, targetId, performedBy, details, now);
    if up && Valid(e) then log + [e] else log
  }

  /** The log only grows by appending: earlier entries are never changed
      or removed. */
  ghost predicate Extends(older: AuditLog, newer: AuditLog) {
    |older| <= |newer| && newer[..|older|] == older
  }

  lemma {:induction false} ExtendsTransitive(a: AuditLog, b: AuditLog, c: AuditLog)
    requires Extends(a, b) && Extends(b, c)
    ensures Extends(a, c)
  {
    assert c[..|a|] == c[..|b|][..|a|];
  }
}

=== FILE: audit_routes.dfy ===
/** The audit-log query (server/src/routes/auditRoutes.ts): an
    optional-field filter, newest first, at most 100 entries. MongoDB does
    not fix the order of entries with equal timestamps; the model sorts
    stably, and the contracts below say only what any correct order gives. */
module AuditRoutes {
  import opened Common
  import opened AuditLogModel

  const Limit: nat := 100

  /** The three query-string parameters, each possibly absent. */
  datatype Query = Query(targetResource: Option<string>, targetId: Option<string>, action: Option<string>)

  const NoFilter: Query := Query(None, None, None)

  /** A parameter constrains the search only when it is truthy (present
      and non-empty); then the entry's field must equal it. */
  predicate Matches(q: Query, e: AuditEntry) {
    && (Truthy(q.targetResource) ==> e.targetResource == q.targetResource.value)
    && (Truthy(q.targetId) ==> e.targetId == Some(q.targetId.value))
    && (Truthy(q.action) ==> e.action == q.action.value)
  }

  /** `AuditLog.find(query)`: the matching entries, each as often as it
      occurs in the log. */
  function Filter(log: AuditLog, q: Query): (r: seq<AuditEntry>)
    ensures forall i | 0 <= i < |r| :: Matches(q, r[i])
    ensures forall e :: multiset(r)[e] == if Matches(q, e) then multiset(log)[e] else 0
  {
    if log == [] then []
    else
      var rest := Filter(log[1..], q);
      assert log == [log[0]] + log[1..];
      if Matches(q, log[0]) then [log[0]] + rest else rest
  }

  /** Newest first: timestamps never increase along the sequence. */
  ghost predicate NewestFirst(s: seq<AuditEntry>) {
    forall i, j | 0 <= i < j < |s| :: s[i].timestamp >= s[j].timestamp
  }

  /** Place `e` before the first entry older than it. */
  function Insert(e: AuditEntry, s: seq<AuditEntry>): (r: seq<AuditEntry>)
    requires NewestFirst(s)
    ensures NewestFirst(r)
    ensures multiset(r) == multiset(s) + multiset{e}
    ensures |r| == |s| + 1
  {
    if s == [] || s[0].timestamp <= e.timestamp then [e] + s
    else
      assert s == [s[0]] + s[1..];
      var rest := Insert(e, s[1..]);
      InsertBehindHead(s[0], e, s[1..], rest);
      [s[0]] + rest
  }

  /** The recursive step of `Insert`: an entry newer than `e` and than
      everything in `t` stays in front of `t` with `e` inserted. */
  lemma InsertBehindHead(h: AuditEntry, e: AuditEntry, t: seq<AuditEntry>, rest: seq<AuditEntry>)
    requires NewestFirst([h] + t) && e.timestamp < h.timestamp
    requires NewestFirst(rest) && multiset(rest) == multiset(t) + multiset{e}
    ensures NewestFirst([h] + rest)
    ensures multiset([h] + rest) == multiset([h] + t) + multiset{e}
  {
    var s := [h] + t;
    assert s[1..] == t;
    HeadIsNewest(s);
    var r := [h] + rest;
    forall i, j | 0 <= i < j < |r|
      ensures r[i].timestamp >= r[j].timestamp
    {
      assert r[j] == rest[j - 1];
      if i > 0 {
        assert r[i] == rest[i - 1];
      } else {
        assert rest[j - 1] in multiset(t) + multiset{e};
      }
    }
  }

  /** The head of a newest-first sequence is at least as new as every
      entry after it. */
  lemma HeadIsNewest(s: seq<AuditEntry>)
    requires NewestFirst(s) && s != []
    ensures forall x | x in multiset(s[1..]) :: x.timestamp <= s[0].timestamp
  {
    forall x | x in multiset(s[1..])
      ensures x.timestamp <= s[0].timestamp
    {
      var m :| 0 <= m < |s[1..]| && s[1..][m] == x;
      assert s[m + 1] == x;
    }
  }

  /** `.sort({ timestamp: -1 })`. */
  function SortNewestFirst(s: seq<AuditEntry>): (r: seq<AuditEntry>)
    ensures NewestFirst(r)
    ensures multiset(r) == multiset(s)
    ensures |r| == |s|
  {
    if s == [] then []
    else
      assert s == [s[0]] + s[1..];
      Insert(s[0], SortNewestFirst(s[1..]))
  }

  function Min(a: nat, b: nat): nat {
    if a <= b then a else b
  }

  /** GET /: filter, newest first, first 100. */
  function Find(log: AuditLog, q: Query): (r: seq<AuditEntry>)
    ensures forall i | 0 <= i < |r| :: Matches(q, r[i])
    ensures NewestFirst(r)
    ensures |r| == Min(Limit, |Filter(log, q)|)
    ensures multiset(r) <= multiset(Filter(log, q))
    // the entries left out are no newer than any entry returned
    ensures forall e, i | e in multiset(Filter(log, q)) - multiset(r) && 0 <= i < |r| ::
              e.timestamp <= r[i].timestamp
  {
    var t := SortNewestFirst(Filter(log, q));
    var k := Min(Limit, |t|);
    MostRecentPrefix(t, k);
    t[..k]
  }

  /** What GET / sends: the entries, or 500 with the message of a store
      failure (`fault`). */
  datatype AuditReply = Logs(entries: seq<AuditEntry>) | ServerError(message: string)

  function Get(log: AuditLog, q: Query, fault: Option<string>): (r: AuditReply)
    ensures r.ServerError? <==> fault.Some?
    ensures fault.Some? ==> r.message == fault.value
    ensures fault.None? ==> r.Logs? && r.entries == Find(log, q)
  {
    match fault
    case Some(m) => ServerError(m)
    case None => Logs(Find(log, q))
  }

  /** In a newest-first sequence, a prefix holds the newest entries:
      whatever the prefix leaves out is no newer than what it keeps. */
  lemma {:induction false} MostRecentPrefix(t: seq<AuditEntry>, k: nat)
    requires NewestFirst(t) && k <= |t|
    ensures NewestFirst(t[..k])
    ensures multiset(t[..k]) <= multiset(t)
    ensures forall e, i | e in multiset(t) - multiset(t[..k]) && 0 <= i < k :: e.timestamp <= t[i].timestamp
  {
    assert t == t[..k] + t[k..];
    assert multiset(t) == multiset(t[..k]) + multiset(t[k..]);
    forall e, i | e in multiset(t) - multiset(t[..k]) && 0 <= i < k
      ensures e.timestamp <= t[i].timestamp
    {
      assert e in multiset(t[k..]);
      var j :| 0 <= j < |t[k..]| && t[k..][j] == e;
      assert t[k + j] == e;
    }
  }

  /** With no parameters the query returns the newest 100 entries of the
      whole log. */
  lemma {:induction false} NoFilterReturnsNewest(log: AuditLog)
    ensures multiset(Filter(log, NoFilter)) == multiset(log)
    ensures |Find(log, NoFilter)| == Min(Limit, |log|)
    ensures forall e, i | e in multiset(log) - multiset(Find(log, NoFilter)) && 0 <= i < |Find(log, NoFilter)| ::
              e.timestamp <= Find(log, NoFilter)[i].timestamp
  {
    var f := Filter(log, NoFilter);
    assert forall e :: multiset(f)[e] == multiset(log)[e];
    assert multiset(f) == multiset(log);
    assert |f| == |multiset(log)| == |log|;
  }

  /** Supplying a parameter can only narrow the result set: every entry a
      narrower query matches, the wider one matches too. */
  lemma MatchesWidening(q: Query, e: AuditEntry)
    requires Matches(q, e)
    ensures Matches(q.(action := None), e)
    ensures Matches(q.(targetId := None), e)
    ensures Matches(q.(targetResource := None), e)
  {
  }

  /** An empty string counts as no parameter at all. */
  lemma EmptyParameterIgnored(q: Query, e: AuditEntry)
    ensures Matches(q.(action := Some("")), e) == Matches(q.(action := None), e)
    ensures Matches(q.(targetId := Some("")), e) == Matches(q.(targetId := None), e)
    ensures Matches(q.(targetResource := Some("")), e) == Matches(q.(targetResource := None), e)
  {
  }
}

=== FILE: auth.dfy ===
/** Request authentication and role authorization
    (server/src/middleware/auth.ts). Authentication is a stub: it ignores
    the `Authorization` header and always installs the same admin identity. */
module Auth {
  import opened Common

  datatype User = User(userId: string, role: string)

  const MockAdmin: User := User("admin-123", "admin")

  /** What a middleware does with the request: reject with a status code,
      or pass control to the next handler. */
  datatype Decision = Reject(status: int, message: string) | Next

  /** `authenticate`: sets `req.user` and always calls `next`; the token,
      present or not, is never inspected. */
  function Authenticate(token: Option<string>): (r: (Option<User>, Decision))
    ensures r.0 == Some(MockAdmin)
    ensures r.1 == Next
  {
    (Some(MockAdmin), Next)
  }

  /** `authorize(roles)`: 401 without a user, 403 when the user's role is
      not listed, otherwise `next`. */
  function Authorize(roles: seq<string>, user: Option<User>): (d: Decision)
    ensures user.None? <==> d == Reject(401, "Unauthorized")
    ensures user.Some? && user.value.role !in roles <==> d == Reject(403, "Forbidden")
    ensures d == Next <==> user.Some? && user.value.role in roles
  {
    if user.None? then Reject(401, "Unauthorized")
    else if user.value.role !in roles then Reject(403, "Forbidden")
    else Next
  }

  /** `authenticate` followed by `authorize(roles)` lets every request
      through whenever `'admin'` is among the roles, token or no token. */
  lemma AuthenticatedAdminPasses(token: Option<string>, roles: seq<string>)
    requires "admin" in roles
    ensures Authenticate(token).1 == Next
    ensures Authorize(roles, Authenticate(token).0) == Next
  {
  }

  /** ... and is refused with 403 whenever it is not. */
  lemma AuthenticatedNonAdminForbidden(token: Option<string>, roles: seq<string>)
    requires "admin" !in roles
    ensures Authorize(roles, Authenticate(token).0) == Reject(403, "Forbidden")
  {
  }

  /** `req.user?.userId || 'unknown'`: the identity recorded in audit entries. */
  function PerformedBy(user: Option<User>): (who: string)
    ensures who != ""
    ensures user.Some? && user.value.userId != "" ==> who == user.value.userId
    ensures user.None? || user.value.userId == "" ==> who == "unknown"
  {
    if user.Some? && user.value.userId != "" then user.value.userId else "unknown"
  }
}

=== FILE: common.dfy ===
/** Shared vocabulary: optional values, JSON-shaped opaque payload, and the
    few string operations the source relies on (`startsWith`, `split(c)[0]`,
    `lastIndexOf`). */
module Common {

  /** A JavaScript value that may be missing (`undefined`). */
  datatype Option<+T> = None | Some(value: T) {
    function GetOr(default: T): T {
      match this
      case Some(v) => v
      case None => default
    }
  }

  /** JSON-shaped data carried through a record without being interpreted. */
  datatype Json =
    | JNull
    | JBool(b: bool)
    | JNum(n: int)
    | JStr(s: string)
    | JArr(items: seq<Json>)
    | JObj(fields: map<string, Json>)

  /** Milliseconds since the epoch, the resolution of a JavaScript `Date`. */
  type Millis = int

  /** JavaScript truthiness of an optional string: missing and "" are falsy. */
  predicate Truthy(s: Option<string>) {
    s.Some? && s.value != ""
  }

  /** `a || b` on optional strings. */
  function OrElse(a: Option<string>, b: string): (r: string)
    ensures Truthy(a) ==> r == a.value
    ensures !Truthy(a) ==> r == b
  {
    if Truthy(a) then a.value else b
  }

  predicate StartsWith(s: string, prefix: string) {
    |prefix| <= |s| && s[..|prefix|] == prefix
  }

  /** `s.split(c)[0]`: the part of `s` before the first occurrence of `c`. */
  function Before(s: string, c: char): (r: string)
    ensures |r| <= |s| && r == s[..|r|]
    ensures c !in r
    ensures |r| < |s| ==> s[|r|] == c
    ensures c !in s ==> r == s
  {
    if s == [] then []
    else if s[0] == c then []
    else [s[0]] + Before(s[1..], c)
  }

  /** Applying `Before` a second time changes nothing. */
  lemma BeforeIdempotent(s: string, c: char)
    ensures Before(Before(s, c), c) == Before(s, c)
  {
  }

  /** Index of the last `c` in `s`, if any. */
  function LastIndexOf(s: string, c: char): (r: Option<nat>)
    ensures r.None? <==> c !in s
    ensures r.Some? ==> r.value < |s| && s[r.value] == c && c !in s[r.value + 1..]
  {
    if s == [] then None
    else if s[|s| - 1] == c then Some(|s| - 1)
    else
      var r := LastIndexOf(s[..|s| - 1], c);
      assert s[..|s| - 1] + [s[|s| - 1]] == s;
      if r.Some? then
        assert s[r.value + 1..] == s[..|s| - 1][r.value + 1..] + [s[|s| - 1]];
        r
      else r
  }
}

=== FILE: custom_select.dfy ===
/** The dropdown component (client/src/components/UI/CustomSelect.tsx):
    option normalisation, the label shown for the current selection, the
    selection transition and the per-level indentation. Rendering and
    the document-level click listener are not modelled. */
module CustomSelect {
  import opened Common

  const DefaultPlaceholder: string := "-- Select --"

  /** An entry of the `options` prop: a bare string or an option object
      whose `level` may be absent. */
  datatype RawOption = Text(text: string) | Labelled(value: string, labelText: string, level: Option<int>)

  datatype SelectOption = SelectOption(value: string, labelText: string, level: int)

  /** A string becomes value = label = itself at level 0; an object keeps
      its value and label, and `level || 0` maps a missing level to 0. */
  function NormalizeOne(o: RawOption): (n: SelectOption)
    ensures o.Text? ==> n == SelectOption(o.text, o.text, 0)
    ensures o.Labelled? ==> n.value == o.value && n.labelText == o.labelText
    ensures o.Labelled? && o.level.None? ==> n.level == 0
    ensures o.Labelled? && o.level.Some? ==> n.level == o.level.value
  {
    match o
    case Text(s) => SelectOption(s, s, 0)
    case Labelled(v, l, lv) => SelectOption(v, l, lv.GetOr(0))
  }

  /** `normalizedOptions`: element-wise, so length and order are kept. */
  function Normalize(opts: seq<RawOption>): (ns: seq<SelectOption>)
    ensures |ns| == |opts|
    ensures forall i | 0 <= i < |opts| :: ns[i] == NormalizeOne(opts[i])
  {
    if opts == [] then [] else [NormalizeOne(opts[0])] + Normalize(opts[1..])
  }

  /** Normalising already-normal options (as objects) changes nothing. */
  lemma NormalizeFixesNormalOptions(ns: seq<SelectOption>)
    ensures Normalize(seq(|ns|, i requires 0 <= i < |ns| => Labelled(ns[i].value, ns[i].labelText, Some(ns[i].level)))) == ns
  {
  }

  /** Index of the first option carrying `v`, as `Array.prototype.find` scans. */
  function FirstIndex(ns: seq<SelectOption>, v: string): (r: Option<nat>)
    ensures r.None? <==> forall i | 0 <= i < |ns| :: ns[i].value != v
    ensures r.Some? ==> r.value < |ns| && ns[r.value].value == v
    ensures r.Some? ==> forall j | 0 <= j < r.value :: ns[j].value != v
  {
    if ns == [] then None
    else if ns[0].value == v then Some(0)
    else
      var r := FirstIndex(ns[1..], v);
      if r.Some? then Some(r.value + 1) else None
  }

  /** `selectedLabel`: the label of the first option whose value is the
      selection, unless there is none or that label is empty (falsy), in
      which case the placeholder (default "-- Select --") shows. */
  function SelectedLabel(ns: seq<SelectOption>, selected: string, placeholder: Option<string>): (l: string)
    ensures (forall i | 0 <= i < |ns| :: ns[i].value != selected) ==> l == placeholder.GetOr(DefaultPlaceholder)
    ensures forall i | 0 <= i < |ns| && ns[i].value == selected && (forall j | 0 <= j < i :: ns[j].value != selected) ::
              l == if ns[i].labelText != "" then ns[i].labelText else placeholder.GetOr(DefaultPlaceholder)
  {
    var ph := placeholder.GetOr(DefaultPlaceholder);
    match FirstIndex(ns, selected)
    case None => ph
    case Some(k) => if ns[k].labelText != "" then ns[k].labelText else ph
  }

  datatype SelectState = SelectState(selected: string, isOpen: bool)

  /** `useState(value || '')`, closed. */
  function Init(value: Option<string>): (st: SelectState)
    ensures !st.isOpen
    ensures Truthy(value) ==> st.selected == value.value
    ensures !Truthy(value) ==> st.selected == ""
  {
    SelectState(OrElse(value, ""), false)
  }

  /** `handleSelect(v)`: select `v`, hand exactly `v` to `onChange` when
      one is given, close the list. */
  function HandleSelect(st: SelectState, v: string, hasOnChange: bool): (r: (SelectState, seq<string>))
    ensures r.0.selected == v && !r.0.isOpen
    ensures hasOnChange ==> r.1 == [v]
    ensures !hasOnChange ==> r.1 == []
  {
    (SelectState(v, false), if hasOnChange then [v] else [])
  }

  /** Clicking the field toggles the list; the selection is kept. */
  function Toggle(st: SelectState): (r: SelectState)
    ensures r.selected == st.selected && r.isOpen == !st.isOpen
  {
    st.(isOpen := !st.isOpen)
  }

  /** Choosing an option shows its label, provided it is the first option
      with that value and its label is non-empty. */
  lemma ChosenOptionIsDisplayed(ns: seq<SelectOption>, i: nat, st: SelectState, hasOnChange: bool, placeholder: Option<string>)
    requires i < |ns| && ns[i].labelText != ""
    requires forall j | 0 <= j < i :: ns[j].value != ns[i].value
    ensures SelectedLabel(ns, HandleSelect(st, ns[i].value, hasOnChange).0.selected, placeholder) == ns[i].labelText
  {
  }

  /** The placeholder row selects "" and, when no option has the value "",
      the placeholder shows again. */
  lemma PlaceholderRowShowsPlaceholder(ns: seq<SelectOption>, st: SelectState, hasOnChange: bool, placeholder: Option<string>)
    requires forall i | 0 <= i < |ns| :: ns[i].value != ""
    ensures var st' := HandleSelect(st, "", hasOnChange).0;
            st'.selected == "" && SelectedLabel(ns, st'.selected, placeholder) == placeholder.GetOr(DefaultPlaceholder)
  {
  }

  /** `paddingLeft` in pixels for an option's row. */
  function PaddingLeft(level: int): (px: int)
    ensures level == 0 ==> px == 16
    ensures px - 16 == 16 * level
  {
    level * 16 + 16
  }
}

=== FILE: employee.dfy ===
/** The employee document (server/src/models/Employee.ts): its stored shape,
    the shape of an incoming JSON payload, the schema defaults applied when a
    payload is cast into a document, and the validation run on save. */
module EmployeeModel {
  import opened Common

  /** 90 days, in milliseconds: the probation window added to `now`. */
  const ProbationWindow: int := 90 * 24 * 60 * 60 * 1000

  const Probation: string := "Probation"
  const Permanent: string := "Permanent"

  /** The `employmentStatus` sub-document once stored. A missing
      `autoUpdated` and `false` are the same to every query the system runs
      (`$ne: true`), so the stored flag is a plain bool; a missing or null
      `probationEndDate` is `None` (neither satisfies `$lte`). */
  datatype EmploymentStatus = EmploymentStatus(
    status: Option<string>,
    startDate: Option<Millis>,
    probationEndDate: Option<Millis>,
    autoUpdated: bool)

  datatype Attachment = Attachment(
    fileType: Option<string>,
    fileName: Option<string>,
    filePath: Option<string>,
    uploadDate: Millis)

  /** Top-level schema paths this model carries without interpreting. */
  datatype OtherField =
    | UserId | MiddleName | Email | Phone | DateOfBirth | Gender
    | MaritalStatus | Nationality | Address | JobInfo
    | EmergencyContacts | Dependents | Education | EmploymentHistory

  /** A stored employee. `employeeId`, `firstName` and `lastName` are the
      schema's required strings; the remaining top-level fields are in
      `other`, present exactly when set. */
  datatype Employee = Employee(
    employeeId: string,
    firstName: string,
    lastName: string,
    employmentStatus: EmploymentStatus,
    attachments: seq<Attachment>,
    other: map<OtherField, Json>)

  /** The collection, keyed by the unique `employeeId`. */
  type Store = map<string, Employee>

  /** Each record sits under its own `employeeId`. */
  ghost predicate Keyed(s: Store) {
    forall k | k in s :: s[k].employeeId == k
  }

  /** Mongoose's `required` check on a String path rejects a missing value
      and the empty string alike. */
  predicate HasRequired(e: Employee) {
    e.employeeId != "" && e.firstName != "" && e.lastName != ""
  }

  /** Every record keyed correctly and carrying its required fields. */
  ghost predicate ValidStore(s: Store) {
    forall k | k in s :: s[k].employeeId == k && HasRequired(s[k])
  }

  // ---------------------------------------------------------------------
  // Incoming payloads (request bodies), every field possibly absent.

  datatype StatusInput = StatusInput(
    status: Option<string>,
    startDate: Option<Millis>,
    probationEndDate: Option<Millis>,
    autoUpdated: Option<bool>)

  const NoStatus: StatusInput := StatusInput(None, None, None, None)

  datatype AttachmentInput = AttachmentInput(
    fileType: Option<string>,
    fileName: Option<string>,
    filePath: Option<string>,
    uploadDate: Option<Millis>)

  datatype Payload = Payload(
    employeeId: Option<string>,
    firstName: Option<string>,
    lastName: Option<string>,
    employmentStatus: Option<StatusInput>,
    attachments: Option<seq<AttachmentInput>>,
    other: map<OtherField, Json>,
    unknown: set<string>)   // names of body keys the schema does not declare

  /** The top-level keys a payload can carry (`Object.keys` of a body). */
  datatype Key =
    | EmployeeIdKey | FirstNameKey | LastNameKey
    | EmploymentStatusKey | AttachmentsKey | OtherKey(field: OtherField)
    | UnknownKey(name: string)

  /** The keys present in a payload. */
  function Keys(p: Payload): (ks: set<Key>)
    ensures EmployeeIdKey in ks <==> p.employeeId.Some?
    ensures FirstNameKey in ks <==> p.firstName.Some?
    ensures LastNameKey in ks <==> p.lastName.Some?
    ensures EmploymentStatusKey in ks <==> p.employmentStatus.Some?
    ensures AttachmentsKey in ks <==> p.attachments.Some?
    ensures forall f :: OtherKey(f) in ks <==> f in p.other
    ensures forall n :: UnknownKey(n) in ks <==> n in p.unknown
  {
    (if p.employeeId.Some? then {EmployeeIdKey} else {})
    + (if p.firstName.Some? then {FirstNameKey} else {})
    + (if p.lastName.Some? then {LastNameKey} else {})
    + (if p.employmentStatus.Some? then {EmploymentStatusKey} else {})
    + (if p.attachments.Some? then {AttachmentsKey} else {})
    + (set f | f in p.other :: OtherKey(f))
    + (set n | n in p.unknown :: UnknownKey(n))
  }

  // ---------------------------------------------------------------------
  // Casting a payload into a document: the schema defaults.

  /** `autoUpdated` defaults to false (Employee.ts:91); the other three
      sub-fields are optional and kept as given. */
  function CastStatus(si: StatusInput): (es: EmploymentStatus)
    ensures es.status == si.status
    ensures es.startDate == si.startDate
    ensures es.probationEndDate == si.probationEndDate
    ensures es.autoUpdated <==> si.autoUpdated == Some(true)
  {
    EmploymentStatus(si.status, si.startDate, si.probationEndDate, si.autoUpdated.GetOr(false))
  }

  /** `uploadDate` defaults to the time the sub-document is cast (Employee.ts:128). */
  function CastAttachment(ai: AttachmentInput, now: Millis): (a: Attachment)
    ensures a.fileType == ai.fileType && a.fileName == ai.fileName && a.filePath == ai.filePath
    ensures ai.uploadDate.None? ==> a.uploadDate == now
    ensures ai.uploadDate.Some? ==> a.uploadDate == ai.uploadDate.value
  {
    Attachment(ai.fileType, ai.fileName, ai.filePath, ai.uploadDate.GetOr(now))
  }

  function CastAttachments(ais: seq<AttachmentInput>, now: Millis): (as_: seq<Attachment>)
    ensures |as_| == |ais|
    ensures forall i | 0 <= i < |ais| :: as_[i] == CastAttachment(ais[i], now)
  {
    seq(|ais|, i requires 0 <= i < |ais| => CastAttachment(ais[i], now))
  }

  /** `new Employee(payload)`: absent required strings are left empty (and
      later fail validation), an absent `employmentStatus` becomes an empty
      sub-document, an absent attachment array becomes `[]`. */
  function CastEmployee(p: Payload, now: Millis): (e: Employee)
    ensures e.employeeId == p.employeeId.GetOr("")
    ensures e.firstName == p.firstName.GetOr("") && e.lastName == p.lastName.GetOr("")
    ensures e.employmentStatus == CastStatus(p.employmentStatus.GetOr(NoStatus))
    ensures p.attachments.None? ==> e.attachments == []
    ensures p.attachments.Some? ==> e.attachments == CastAttachments(p.attachments.value, now)
    ensures e.other == p.other
  {
    Employee(
      p.employeeId.GetOr(""), p.firstName.GetOr(""), p.lastName.GetOr(""),
      CastStatus(p.employmentStatus.GetOr(NoStatus)),
      if p.attachments.Some? then CastAttachments(p.attachments.value, now) else [],
      p.other)
  }

  /** `Object.assign(employee, updates)`: every top-level key the payload
      carries replaces the stored value wholesale (a nested sub-document is
      not merged), every absent key keeps the stored value. */
  function Merge(e: Employee, p: Payload, now: Millis): (m: Employee)
    ensures m.employeeId == (if p.employeeId.Some? then p.employeeId.value else e.employeeId)
    ensures m.firstName == (if p.firstName.Some? then p.firstName.value else e.firstName)
    ensures m.lastName == (if p.lastName.Some? then p.lastName.value else e.lastName)
    ensures p.employmentStatus.None? ==> m.employmentStatus == e.employmentStatus
    ensures p.employmentStatus.Some? ==> m.employmentStatus == CastStatus(p.employmentStatus.value)
    ensures p.attachments.None? ==> m.attachments == e.attachments
    ensures p.attachments.Some? ==> m.attachments == CastAttachments(p.attachments.value, now)
    ensures m.other.Keys == e.other.Keys + p.other.Keys
    ensures forall f | f in m.other :: m.other[f] == if f in p.other then p.other[f] else e.other[f]
  {
    Employee(
      p.employeeId.GetOr(e.employeeId),
      p.firstName.GetOr(e.firstName),
      p.lastName.GetOr(e.lastName),
      if p.employmentStatus.Some? then CastStatus(p.employmentStatus.value) else e.employmentStatus,
      if p.attachments.Some? then CastAttachments(p.attachments.value, now) else e.attachments,
      e.other + p.other)
  }

  const EmptyPayload: Payload := Payload(None, None, None, None, None, map[], {})

  /** Keys the schema does not declare are dropped from the document (strict
      mode) but still listed among the body's keys. */
  lemma UnknownKeysOnlyListed(e: Employee, p: Payload, u: set<string>, now: Millis)
    ensures Merge(e, p.(unknown := u), now) == Merge(e, p, now)
    ensures CastEmployee(p.(unknown := u), now) == CastEmployee(p, now)
    ensures forall n :: UnknownKey(n) in Keys(p.(unknown := u)) <==> n in u
    ensures forall k: Key | !k.UnknownKey? :: k in Keys(p.(unknown := u)) <==> k in Keys(p)
  {
  }

  /** Merging a payload with no keys is the identity. */
  lemma MergeEmptyIsIdentity(e: Employee, now: Millis)
    ensures Keys(EmptyPayload) == {}
    ensures Merge(e, EmptyPayload, now) == e
  {
    assert e.other + map[] == e.other;
  }

  /** A merge changes a record only through the keys it carries: two
      records that agree before agree after, and a record whose every
      field the payload sets ends up equal to the cast payload. */
  lemma MergeOverwritesFully(e1: Employee, e2: Employee, p: Payload, now: Millis)
    requires p.employeeId.Some? && p.firstName.Some? && p.lastName.Some?
    requires p.employmentStatus.Some? && p.attachments.Some?
    requires e1.other.Keys + e2.other.Keys <= p.other.Keys
    ensures Merge(e1, p, now) == Merge(e2, p, now) == CastEmployee(p, now)
  {
    assert e1.other + p.other == p.other;
    assert e2.other + p.other == p.other;
  }

  // ---------------------------------------------------------------------
  // Saving: validation and the unique index.

  datatype SaveError = MissingRequired | DuplicateKey | StoreUnavailable

  datatype SaveResult = Saved(store: Store) | SaveFailed(error: SaveError)

  /** `doc.save()` of `e`, which replaces the record stored under `from`
      (None for a new document). Validation runs first, then the write,
      which the unique index on `employeeId` can refuse. */
  function Save(s: Store, from: Option<string>, e: Employee, storeUp: bool): (r: SaveResult)
    ensures r.Saved? <==> HasRequired(e) && storeUp && (e.employeeId !in s || Some(e.employeeId) == from)
    ensures r.SaveFailed? && !HasRequired(e) ==> r.error == MissingRequired
    ensures r.Saved? ==> e.employeeId in r.store && r.store[e.employeeId] == e
    ensures r.Saved? ==> forall k | k in s && k != e.employeeId && Some(k) != from :: k in r.store && r.store[k] == s[k]
    ensures r.Saved? ==> r.store.Keys == s.Keys - (if from.Some? then {from.value} else {}) + {e.employeeId}
  {
    if !HasRequired(e) then SaveFailed(MissingRequired)
    else if !storeUp then SaveFailed(StoreUnavailable)
    else if e.employeeId in s && Some(e.employeeId) != from then SaveFailed(DuplicateKey)
    else
      var base := if from.Some? then s - {from.value} else s;
      Saved(base[e.employeeId := e])
  }

  /** A successful save keeps the store keyed and valid. */
  lemma {:induction false} SavePreservesValid(s: Store, from: Option<string>, e: Employee, storeUp: bool)
    requires ValidStore(s)
    requires Save(s, from, e, storeUp).Saved?
    ensures ValidStore(Save(s, from, e, storeUp).store)
  {
    var t := Save(s, from, e, storeUp).store;
    forall k | k in t
      ensures t[k].employeeId == k && HasRequired(t[k])
    {
      if k != e.employeeId {
        assert k in s && t[k] == s[k];
      }
    }
  }
}

=== FILE: employee_routes.dfy ===
/** The mutation gateway (server/src/routes/employeeRoutes.ts): create,
    update and delete of employee records, plus the attachment upload, each
    as a pure transition of the record store and the audit log. The
    request's clock reading and the health of the two stores come in as an
    `Env`; the caller is whatever `authenticate` put on the request. */
module EmployeeRoutes {
  import opened Common
  import opened EmployeeModel
  import opened AuditLogModel
  import Auth
  import Upload

  datatype State = State(store: Store, log: AuditLog)

  /** `now` is `Date.now()` during the request; `storeUp`/`auditUp` say
      whether the employee and audit collections accept operations. */
  datatype Env = Env(now: Millis, storeUp: bool, auditUp: bool)

  datatype Body =
    | Record(employee: Employee)
    | Message(text: string)
    | Failure(error: SaveError)
    | AttachmentBody(attachment: Attachment)

  datatype Reply = Reply(status: int, body: Body)

  const WriterRoles: seq<string> := ["admin", "hr"]
  const AdminRoles: seq<string> := ["admin"]
  const NotFound: string := "Employee not found"

  /** `createAuditLog`: best effort. The entry targets an "Employee"; if the
      write fails the error is only logged, so the log is simply unchanged. */
  function RecordAudit(log: AuditLog, action: string, targetId: string, user: Option<Auth.User>,
                       details: Details, env: Env): (r: AuditLog)
    requires action != ""
    ensures r == log || r == log + [AuditEntry(action, "Employee", Some(targetId), Auth.PerformedBy(user), details, env.now)]
    ensures r != log <==> env.auditUp
  {
    Append(log, action, "Employee", Some(targetId), Auth.PerformedBy(user), details, env.now, env.auditUp)
  }

  // ---------------------------------------------------------------------
  // POST /

  /** The `employmentStatus` a create request saves: whatever the request
      sent, with `probationEndDate` replaced by now + 90 days when the
      requested status is "Probation" and by null otherwise. */
  function CreateStatus(si: Option<StatusInput>, now: Millis): (r: StatusInput)
    ensures r.status == si.GetOr(NoStatus).status
    ensures r.startDate == si.GetOr(NoStatus).startDate
    ensures r.autoUpdated == si.GetOr(NoStatus).autoUpdated
    ensures r.status == Some(Probation) ==> r.probationEndDate == Some(now + ProbationWindow)
    ensures r.status != Some(Probation) ==> r.probationEndDate.None?
  {
    var base := si.GetOr(NoStatus);
    base.(probationEndDate := if base.status == Some(Probation) then Some(now + ProbationWindow) else None)
  }

  /** The document `new Employee({...body, employmentStatus: ...})` builds. */
  function NewRecord(p: Payload, now: Millis): Employee {
    CastEmployee(p.(employmentStatus := Some(CreateStatus(p.employmentStatus, now))), now)
  }

  /** Whether a create request gets past validation and the unique index. */
  predicate CreateSucceeds(s: Store, p: Payload, env: Env) {
    var e := NewRecord(p, env.now);
    HasRequired(e) && env.storeUp && e.employeeId !in s
  }

  function Create(st: State, p: Payload, user: Option<Auth.User>, env: Env): (r: (State, Reply))
    // authorize(['admin', 'hr'])
    ensures Auth.Authorize(WriterRoles, user).Reject? ==>
              r == (st, Reply(Auth.Authorize(WriterRoles, user).status, Message(Auth.Authorize(WriterRoles, user).message)))
    // validation failure, duplicate key or store failure: 400, nothing written
    ensures Auth.Authorize(WriterRoles, user).Next? && !CreateSucceeds(st.store, p, env) ==>
              r.0 == st && r.1.status == 400 && r.1.body.Failure?
    ensures r.1.status == 400 && NewRecord(p, env.now).employeeId in st.store && HasRequired(NewRecord(p, env.now)) && env.storeUp ==>
              r.1.body == Failure(DuplicateKey)
    ensures r.1.status == 400 && !HasRequired(NewRecord(p, env.now)) ==> r.1.body == Failure(MissingRequired)
    ensures r.1.status == 400 && HasRequired(NewRecord(p, env.now)) && !env.storeUp ==> r.1.body == Failure(StoreUnavailable)
    // success
    ensures r.1.status == 201 <==> Auth.Authorize(WriterRoles, user).Next? && CreateSucceeds(st.store, p, env)
    ensures r.1.status == 201 ==> r.1.body.Record?
    ensures r.1.status == 201 && r.1.body.Record? ==>
              var e := r.1.body.employee;
              && e.employeeId == p.employeeId.value
              && e.firstName == p.firstName.value
              && e.lastName == p.lastName.value
              && e.other == p.other
              && e.attachments == (if p.attachments.Some? then CastAttachments(p.attachments.value, env.now) else [])
              && e.employmentStatus.status == p.employmentStatus.GetOr(NoStatus).status
              && e.employmentStatus.startDate == p.employmentStatus.GetOr(NoStatus).startDate
              && (e.employmentStatus.probationEndDate ==
                    if e.employmentStatus.status == Some(Probation) then Some(env.now + ProbationWindow) else None)
              && (e.employmentStatus.autoUpdated <==> p.employmentStatus.GetOr(NoStatus).autoUpdated == Some(true))
              && e.employeeId !in st.store
              && r.0.store == st.store[e.employeeId := e]
              && (r.0.log == st.log || r.0.log == st.log + [AuditEntry("CREATE", "Employee", Some(e.employeeId),
                    Auth.PerformedBy(user), FullName(e.firstName + " " + e.lastName), env.now)])
              && (r.0.log != st.log <==> env.auditUp)
    ensures Extends(st.log, r.0.log)
    ensures r.1.status in {201, 400, 401, 403}
  {
    var d := Auth.Authorize(WriterRoles, user);
    if d.Reject? then (st, Reply(d.status, Message(d.message)))
    else
      var e := NewRecord(p, env.now);
      match Save(st.store, None, e, env.storeUp)
      case SaveFailed(err) => (st, Reply(400, Failure(err)))
      case Saved(s') =>
        var log' := RecordAudit(st.log, "CREATE", e.employeeId, user, FullName(e.firstName + " " + e.lastName), env);
        (State(s', log'), Reply(201, Record(e)))
  }

  // ---------------------------------------------------------------------
  // PUT /:id

  /** The body after the handler's own adjustment: when it moves the
      status into "Probation" from anything else, its `probationEndDate`
      becomes now + 90 days; otherwise it is used as sent. */
  function AdjustUpdate(current: Employee, p: Payload, now: Millis): (q: Payload)
    ensures Keys(q) == Keys(p)
    ensures q.(employmentStatus := p.employmentStatus) == p
    ensures p.employmentStatus.None? ==> q == p
    ensures p.employmentStatus.Some? ==>
              && q.employmentStatus.Some?
              && q.employmentStatus.value.status == p.employmentStatus.value.status
              && q.employmentStatus.value.startDate == p.employmentStatus.value.startDate
              && q.employmentStatus.value.autoUpdated == p.employmentStatus.value.autoUpdated
              && q.employmentStatus.value.probationEndDate ==
                   (if p.employmentStatus.value.status == Some(Probation) && current.employmentStatus.status != Some(Probation)
                    then Some(now + ProbationWindow)
                    else p.employmentStatus.value.probationEndDate)
  {
    if p.employmentStatus.Some? && p.employmentStatus.value.status == Some(Probation)
       && current.employmentStatus.status != Some(Probation)
    then p.(employmentStatus := Some(p.employmentStatus.value.(probationEndDate := Some(now + ProbationWindow))))
    else p
  }

  /** The record an update would save for the record under `id`. */
  function Updated(s: Store, id: string, p: Payload, now: Millis): Employee
    requires id in s
  {
    Merge(s[id], AdjustUpdate(s[id], p, now), now)
  }

  /** Whether an update of a known record gets past validation and the
      unique index (the body may rename `employeeId`). */
  predicate UpdateSucceeds(s: Store, id: string, p: Payload, now: Millis)
    requires id in s
  {
    var m := Updated(s, id, p, now);
    HasRequired(m) && (m.employeeId !in s || m.employeeId == id)
  }

  function Update(st: State, id: string, p: Payload, user: Option<Auth.User>, env: Env): (r: (State, Reply))
    ensures Auth.Authorize(WriterRoles, user).Reject? ==>
              r == (st, Reply(Auth.Authorize(WriterRoles, user).status, Message(Auth.Authorize(WriterRoles, user).message)))
    // unknown id: 404, nothing written, no audit entry
    ensures Auth.Authorize(WriterRoles, user).Next? && env.storeUp && id !in st.store ==>
              r == (st, Reply(404, Message(NotFound)))
    // store failure, or a save refused by validation or the unique index: 500
    ensures Auth.Authorize(WriterRoles, user).Next? && !env.storeUp ==>
              r == (st, Reply(500, Failure(StoreUnavailable)))
    ensures Auth.Authorize(WriterRoles, user).Next? && env.storeUp && id in st.store && !UpdateSucceeds(st.store, id, p, env.now) ==>
              r == (st, Reply(500, Failure(if HasRequired(Updated(st.store, id, p, env.now)) then DuplicateKey else MissingRequired)))
    // every failure leaves the state as it was
    ensures r.1.status != 200 ==> r.0 == st
    ensures r.1.status == 200 <==>
              Auth.Authorize(WriterRoles, user).Next? && env.storeUp && id in st.store && UpdateSucceeds(st.store, id, p, env.now)
    ensures r.1.status == 200 ==> id in st.store && r.1.body.Record?
    ensures r.1.status == 200 && id in st.store && r.1.body.Record? ==>
              var current := st.store[id];
              var m := r.1.body.employee;
              // shallow merge: present keys replace, absent keys keep
              && m.employeeId == p.employeeId.GetOr(current.employeeId)
              && m.firstName == p.firstName.GetOr(current.firstName)
              && m.lastName == p.lastName.GetOr(current.lastName)
              && m.other == current.other + p.other
              && (p.attachments.None? ==> m.attachments == current.attachments)
              && (p.attachments.Some? ==> m.attachments == CastAttachments(p.attachments.value, env.now))
              && (p.employmentStatus.None? ==> m.employmentStatus == current.employmentStatus)
              // a sent employmentStatus replaces the stored one as a whole
              && (p.employmentStatus.Some? ==>
                    var si := p.employmentStatus.value;
                    && m.employmentStatus.status == si.status
                    && m.employmentStatus.startDate == si.startDate
                    && (m.employmentStatus.autoUpdated <==> si.autoUpdated == Some(true))
                    && m.employmentStatus.probationEndDate ==
                         (if si.status == Some(Probation) && current.employmentStatus.status != Some(Probation)
                          then Some(env.now + ProbationWindow) else si.probationEndDate))
              && r.0.store == (st.store - {id})[m.employeeId := m]
              && (r.0.log == st.log || r.0.log == st.log + [AuditEntry("UPDATE", "Employee", Some(m.employeeId),
                    Auth.PerformedBy(user), Updates(Keys(p)), env.now)])
              && (r.0.log != st.log <==> env.auditUp)
    ensures Extends(st.log, r.0.log)
    ensures r.1.status in {200, 401, 403, 404, 500}
  {
    var d := Auth.Authorize(WriterRoles, user);
    if d.Reject? then (st, Reply(d.status, Message(d.message)))
    else if !env.storeUp then (st, Reply(500, Failure(StoreUnavailable)))
    else if id !in st.store then (st, Reply(404, Message(NotFound)))
    else
      var m := Updated(st.store, id, p, env.now);
      match Save(st.store, Some(id), m, env.storeUp)
      case SaveFailed(err) => (st, Reply(500, Failure(err)))
      case Saved(s') =>
        var log' := RecordAudit(st.log, "UPDATE", m.employeeId, user, Updates(Keys(p)), env);
        (State(s', log'), Reply(200, Record(m)))
  }

  // ---------------------------------------------------------------------
  // DELETE /:id

  function Delete(st: State, id: string, user: Option<Auth.User>, env: Env): (r: (State, Reply))
    ensures Auth.Authorize(AdminRoles, user).Reject? ==>
              r == (st, Reply(Auth.Authorize(AdminRoles, user).status, Message(Auth.Authorize(AdminRoles, user).message)))
    ensures Auth.Authorize(AdminRoles, user).Next? && env.storeUp && id !in st.store ==>
              r == (st, Reply(404, Message(NotFound)))
    ensures Auth.Authorize(AdminRoles, user).Next? && !env.storeUp ==>
              r == (st, Reply(500, Failure(StoreUnavailable)))
    ensures r.1.status != 200 ==> r.0 == st
    ensures r.1.status == 200 <==> Auth.Authorize(AdminRoles, user).Next? && env.storeUp && id in st.store
    ensures r.1.status == 200 ==>
              && r.1 == Reply(200, Message("Employee deleted"))
              && r.0.store == st.store - {id}
              && (r.0.log == st.log || r.0.log == st.log + [AuditEntry("DELETE", "Employee", Some(id),
                    Auth.PerformedBy(user), EmptyDetails, env.now)])
              && (r.0.log != st.log <==> env.auditUp)
    ensures Extends(st.log, r.0.log)
    ensures r.1.status in {200, 401, 403, 404, 500}
  {
    var d := Auth.Authorize(AdminRoles, user);
    if d.Reject? then (st, Reply(d.status, Message(d.message)))
    else if !env.storeUp then (st, Reply(500, Failure(StoreUnavailable)))
    else if id !in st.store then (st, Reply(404, Message(NotFound)))
    else
      var log' := RecordAudit(st.log, "DELETE", id, user, EmptyDetails, env);
      (State(st.store - {id}, log'), Reply(200, Message("Employee deleted")))
  }

  // ---------------------------------------------------------------------
  // POST /:id/attachments (only `authenticate` guards it)

  const NoFile: string := "No file uploaded"

  /** Whether saving the record under `id` with one more attachment gets
      past validation and the unique index. */
  predicate AttachSucceeds(s: Store, id: string)
    requires id in s
  {
    HasRequired(s[id]) && (s[id].employeeId !in s || s[id].employeeId == id)
  }

  /** The handler once multer has stored the file `f`: the record gains an
      attachment typed by the form field (default "Document"), named after
      the original file, pointing at the stored path, dated now. */
  function Attach(st: State, id: string, f: Upload.StoredFile, fileType: Option<string>,
                  user: Option<Auth.User>, env: Env): (r: (State, Reply))
    ensures env.storeUp && id !in st.store ==> r == (st, Reply(404, Message(NotFound)))
    // store failure, or a save refused by validation or the unique index: 500
    ensures !env.storeUp ==> r == (st, Reply(500, Failure(StoreUnavailable)))
    ensures env.storeUp && id in st.store && !AttachSucceeds(st.store, id) ==>
              r == (st, Reply(500, Failure(if HasRequired(st.store[id]) then DuplicateKey else MissingRequired)))
    ensures r.1.status != 200 ==> r.0 == st
    ensures Extends(st.log, r.0.log)
    ensures r.1.status == 200 <==> env.storeUp && id in st.store && AttachSucceeds(st.store, id)
    ensures r.1.status == 200 ==>
              var e := st.store[id];
              var a := Attachment(Some(OrElse(fileType, "Document")), Some(f.originalname), Some(f.path), env.now);
              && r.1 == Reply(200, AttachmentBody(a))
              && r.0.store == (st.store - {id})[e.employeeId := e.(attachments := e.attachments + [a])]
              && (r.0.log == st.log || r.0.log == st.log + [AuditEntry("UPLOAD_DOC", "Employee", Some(id),
                    Auth.PerformedBy(user), UploadedFile(f.originalname), env.now)])
              && (r.0.log != st.log <==> env.auditUp)
  {
    if !env.storeUp then (st, Reply(500, Failure(StoreUnavailable)))
    else if id !in st.store then (st, Reply(404, Message(NotFound)))
    else
      var e := st.store[id];
      var a := Attachment(Some(OrElse(fileType, "Document")), Some(f.originalname), Some(f.path), env.now);
      match Save(st.store, Some(id), e.(attachments := e.attachments + [a]), env.storeUp)
      case SaveFailed(err) => (st, Reply(500, Failure(err)))
      case Saved(s') =>
        var log' := RecordAudit(st.log, "UPLOAD_DOC", id, user, UploadedFile(f.originalname), env);
        (State(s', log'), Reply(200, AttachmentBody(a)))
  }

  /** The one form field the route takes a file from. */
  const FileField: string := "file"

  /** multer's single-file stage (`upload.single('file')`) followed by the
      handler. Without a file the handler answers 400; a file multer
      rejects (wrong field, type or size) never reaches the handler, and
      Express answers 500 with the error. The server installs no error
      middleware, so that 500 comes from Express's default handler as an
      HTML page; its `Message` here stands for the error's message, not for
      the `{ message }` JSON the handlers send. */
  function UploadAttachment(st: State, id: string, file: Option<Upload.IncomingFile>, fileType: Option<string>,
                            dir: string, suffix: string, user: Option<Auth.User>, env: Env): (r: (State, Reply))
    ensures file.None? ==> r == (st, Reply(400, Message(NoFile)))
    ensures file.Some? && file.value.fieldname != FileField ==> r == (st, Reply(500, Message("Unexpected field")))
    ensures file.Some? && Upload.Receive(FileField, file.value, dir, suffix).Rejected? ==> r.0 == st && r.1.status == 500
    ensures file.Some? && Upload.Receive(FileField, file.value, dir, suffix).Stored? ==>
              r == Attach(st, id, Upload.Receive(FileField, file.value, dir, suffix).file, fileType, user, env)
  {
    if file.None? then (st, Reply(400, Message(NoFile)))
    else match Upload.Receive(FileField, file.value, dir, suffix)
      case Rejected(err) =>
        (st, Reply(500, Message(match err
                                case UnexpectedField(_) => "Unexpected field"
                                case InvalidType(m) => m
                                case FileTooLarge => "File too large")))
      case Stored(f) => Attach(st, id, f, fileType, user, env)
  }
}

=== FILE: gateway_properties.dfy ===
/** Properties relating the gateway's operations to each other, to the
    store invariant, to the audit log's append-only discipline, and to the
    probation rule. */
module GatewayProperties {
  import opened Common
  import opened EmployeeModel
  import opened AuditLogModel
  import opened EmployeeRoutes
  import Auth
  import Upload
  import ProbationCheck

  /** A create keeps each record under its own key with its required
      fields. */
  lemma CreatePreservesValid(st: State, p: Payload, user: Option<Auth.User>, env: Env)
    requires ValidStore(st.store)
    ensures ValidStore(Create(st, p, user, env).0.store)
  {
    if Save(st.store, None, NewRecord(p, env.now), env.storeUp).Saved? {
      SavePreservesValid(st.store, None, NewRecord(p, env.now), env.storeUp);
    }
  }

  /** So does an update, which may rename the record. */
  lemma UpdatePreservesValid(st: State, id: string, p: Payload, user: Option<Auth.User>, env: Env)
    requires ValidStore(st.store)
    ensures ValidStore(Update(st, id, p, user, env).0.store)
  {
    if id in st.store {
      var m := Updated(st.store, id, p, env.now);
      if Save(st.store, Some(id), m, env.storeUp).Saved? {
        SavePreservesValid(st.store, Some(id), m, env.storeUp);
      }
    }
  }

  /** So does attaching a file to a record. */
  lemma AttachPreservesValid(st: State, id: string, f: Upload.StoredFile, fileType: Option<string>,
                             user: Option<Auth.User>, env: Env)
    requires ValidStore(st.store)
    ensures ValidStore(Attach(st, id, f, fileType, user, env).0.store)
  {
    if id in st.store {
      var e := st.store[id];
      var a := Attachment(Some(OrElse(fileType, "Document")), Some(f.originalname), Some(f.path), env.now);
      if Save(st.store, Some(id), e.(attachments := e.attachments + [a]), env.storeUp).Saved? {
        SavePreservesValid(st.store, Some(id), e.(attachments := e.attachments + [a]), env.storeUp);
      }
    }
  }

  /** Every mutation keeps each record under its own key with its required
      fields. */
  lemma {:induction false} MutationsPreserveValid(st: State, id: string, p: Payload, f: Upload.StoredFile,
                                                   fileType: Option<string>, user: Option<Auth.User>, env: Env)
    requires ValidStore(st.store)
    ensures ValidStore(Create(st, p, user, env).0.store)
    ensures ValidStore(Update(st, id, p, user, env).0.store)
    ensures ValidStore(Delete(st, id, user, env).0.store)
    ensures ValidStore(Attach(st, id, f, fileType, user, env).0.store)
  {
    CreatePreservesValid(st, p, user, env);
    UpdatePreservesValid(st, id, p, user, env);
    AttachPreservesValid(st, id, f, fileType, user, env);
  }

  /** A failing audit write changes neither a create's reply nor the store
      it leaves. */
  lemma CreateAuditIsBestEffort(st: State, p: Payload, user: Option<Auth.User>, env: Env)
    ensures Create(st, p, user, env).1 == Create(st, p, user, env.(auditUp := false)).1
    ensures Create(st, p, user, env).0.store == Create(st, p, user, env.(auditUp := false)).0.store
  {
  }

  /** Nor an update's. */
  lemma UpdateAuditIsBestEffort(st: State, id: string, p: Payload, user: Option<Auth.User>, env: Env)
    ensures Update(st, id, p, user, env).1 == Update(st, id, p, user, env.(auditUp := false)).1
    ensures Update(st, id, p, user, env).0.store == Update(st, id, p, user, env.(auditUp := false)).0.store
  {
  }

  /** Nor an attachment's. */
  lemma AttachAuditIsBestEffort(st: State, id: string, f: Upload.StoredFile, fileType: Option<string>,
                                user: Option<Auth.User>, env: Env)
    ensures Attach(st, id, f, fileType, user, env).1 == Attach(st, id, f, fileType, user, env.(auditUp := false)).1
    ensures Attach(st, id, f, fileType, user, env).0.store ==
              Attach(st, id, f, fileType, user, env.(auditUp := false)).0.store
  {
  }

  /** A failing audit write never changes what the client is told nor what
      the employee store holds. */
  lemma AuditIsBestEffort(st: State, id: string, p: Payload, f: Upload.StoredFile,
                          fileType: Option<string>, user: Option<Auth.User>, env: Env)
    ensures var down := env.(auditUp := false);
            && Create(st, p, user, env).1 == Create(st, p, user, down).1
            && Create(st, p, user, env).0.store == Create(st, p, user, down).0.store
            && Update(st, id, p, user, env).1 == Update(st, id, p, user, down).1
            && Update(st, id, p, user, env).0.store == Update(st, id, p, user, down).0.store
            && Delete(st, id, user, env).1 == Delete(st, id, user, down).1
            && Delete(st, id, user, env).0.store == Delete(st, id, user, down).0.store
            && Attach(st, id, f, fileType, user, env).1 == Attach(st, id, f, fileType, user, down).1
            && Attach(st, id, f, fileType, user, env).0.store == Attach(st, id, f, fileType, user, down).0.store
  {
    CreateAuditIsBestEffort(st, p, user, env);
    UpdateAuditIsBestEffort(st, id, p, user, env);
    AttachAuditIsBestEffort(st, id, f, fileType, user, env);
  }

  /** Each successful mutation adds exactly one audit entry when the audit
      store is up; failures add none. */
  lemma {:induction false} OneEntryPerSuccess(st: State, id: string, p: Payload, f: Upload.StoredFile,
                                              fileType: Option<string>, user: Option<Auth.User>, env: Env)
    requires env.auditUp
    ensures |Create(st, p, user, env).0.log| == |st.log| + (if Create(st, p, user, env).1.status == 201 then 1 else 0)
    ensures |Update(st, id, p, user, env).0.log| == |st.log| + (if Update(st, id, p, user, env).1.status == 200 then 1 else 0)
    ensures |Delete(st, id, user, env).0.log| == |st.log| + (if Delete(st, id, user, env).1.status == 200 then 1 else 0)
    ensures |Attach(st, id, f, fileType, user, env).0.log| ==
              |st.log| + (if Attach(st, id, f, fileType, user, env).1.status == 200 then 1 else 0)
  {
    var c := Create(st, p, user, env);
    if c.1.status == 201 { assert c.0.log != st.log; }
    var u := Update(st, id, p, user, env);
    if u.1.status == 200 { assert u.0.log != st.log; }
    var d := Delete(st, id, user, env);
    if d.1.status == 200 { assert d.0.log != st.log; }
    var a := Attach(st, id, f, fileType, user, env);
    if a.1.status == 200 { assert a.0.log != st.log; }
  }

  /** Requests that went through `authenticate` are never refused with
      401 or 403 by the mutation routes. */
  lemma AuthenticatedCallersPass(token: Option<string>, st: State, id: string, p: Payload, env: Env)
    ensures var user := Auth.Authenticate(token).0;
            && Create(st, p, user, env).1.status !in {401, 403}
            && Update(st, id, p, user, env).1.status !in {401, 403}
            && Delete(st, id, user, env).1.status !in {401, 403}
  {
    Auth.AuthenticatedAdminPasses(token, WriterRoles);
    Auth.AuthenticatedAdminPasses(token, AdminRoles);
  }

  /** Deleting a record just created restores the store (the log keeps
      both entries). */
  lemma {:induction false} CreateThenDeleteRestoresStore(st: State, p: Payload, user: Option<Auth.User>, env: Env)
    requires Create(st, p, user, env).1.status == 201
    requires Auth.Authorize(AdminRoles, user).Next?
    ensures var (st1, reply) := Create(st, p, user, env);
            Delete(st1, reply.body.employee.employeeId, user, env).0.store == st.store
  {
    var (st1, reply) := Create(st, p, user, env);
    var e := reply.body.employee;
    assert st1.store == st.store[e.employeeId := e];
    assert e.employeeId !in st.store;
    assert st1.store - {e.employeeId} == st.store;
  }

  /** A record created in "Probation" at `t` (without a caller-set flag)
      is not eligible for promotion before `t` + 90 days, and is eligible
      from that instant on. */
  lemma CreatedProbationPromotedAfterWindow(st: State, p: Payload, user: Option<Auth.User>,
                                            env: Env, later: Millis)
    requires Create(st, p, user, env).1.status == 201
    requires p.employmentStatus.Some? && p.employmentStatus.value.status == Some(Probation)
    requires p.employmentStatus.value.autoUpdated != Some(true)
    ensures var e := Create(st, p, user, env).1.body.employee;
            ProbationCheck.Eligible(e, later) <==> later >= env.now + ProbationWindow
  {
  }

  /** A record created in any other status is never promoted. */
  lemma CreatedOtherStatusNeverPromoted(st: State, p: Payload, user: Option<Auth.User>,
                                        env: Env, later: Millis)
    requires Create(st, p, user, env).1.status == 201
    requires p.employmentStatus.None? || p.employmentStatus.value.status != Some(Probation)
    ensures !ProbationCheck.Eligible(Create(st, p, user, env).1.body.employee, later)
  {
  }

  /** Moving a record from another status back into "Probation" restarts
      the 90-day window; the record is auto-promotable again exactly when
      the request did not itself send `autoUpdated: true`. */
  lemma ReentryRestartsWindow(st: State, id: string, si: StatusInput, user: Option<Auth.User>,
                              env: Env, later: Millis)
    requires id in st.store && st.store[id].employmentStatus.status != Some(Probation)
    requires si.status == Some(Probation)
    requires Update(st, id, EmptyPayload.(employmentStatus := Some(si)), user, env).1.status == 200
    ensures var m := Update(st, id, EmptyPayload.(employmentStatus := Some(si)), user, env).1.body.employee;
            && m.employmentStatus.probationEndDate == Some(env.now + ProbationWindow)
            && (ProbationCheck.Eligible(m, later) <==> later >= env.now + ProbationWindow && si.autoUpdated != Some(true))
  {
  }
}

=== FILE: probation.dfy ===
/** Automatic promotion out of probation: the guarded bulk update shared by
    the daily cron job (server/src/services/scheduler.ts) and the
    serverless endpoint (server/api/cron/probation-check.ts). One run is one
    atomic step over the whole store; `now` is the run's clock reading. */
module ProbationCheck {
  import opened Common
  import opened EmployeeModel

  /** The `updateMany` filter: probation has ended (`$lte: today`, so the
      end instant itself counts), the status is still "Probation", and the
      record has not been promoted automatically before (`$ne: true`). */
  predicate Eligible(e: Employee, now: Millis) {
    && e.employmentStatus.probationEndDate.Some?
    && e.employmentStatus.probationEndDate.value <= now
    && e.employmentStatus.status == Some(Probation)
    && !e.employmentStatus.autoUpdated
  }

  /** Two records that differ at most in `employmentStatus.status` and
      `employmentStatus.autoUpdated`. */
  predicate SameExceptStatusAndFlag(a: Employee, b: Employee) {
    && a.employeeId == b.employeeId
    && a.firstName == b.firstName
    && a.lastName == b.lastName
    && a.attachments == b.attachments
    && a.other == b.other
    && a.employmentStatus.startDate == b.employmentStatus.startDate
    && a.employmentStatus.probationEndDate == b.employmentStatus.probationEndDate
  }

  /** The `$set`: status becomes "Permanent" and the flag is raised. */
  function PromoteRecord(e: Employee): (r: Employee)
    ensures r.employmentStatus.status == Some(Permanent)
    ensures r.employmentStatus.autoUpdated
    ensures SameExceptStatusAndFlag(e, r)
  {
    e.(employmentStatus := e.employmentStatus.(status := Some(Permanent), autoUpdated := true))
  }

  /** Keys of the records the filter selects. */
  function Selected(s: Store, now: Millis): (ks: set<string>)
    ensures forall k :: k in ks <==> k in s && Eligible(s[k], now)
  {
    set k | k in s && Eligible(s[k], now)
  }

  /** One run of the rule: every selected record is promoted, every other
      record is left exactly as it was, and the count is the number of
      records the filter selected (each of them really changes, since its
      status moves away from "Probation"). */
  function Promote(s: Store, now: Millis): (r: (Store, nat))
    ensures r.0.Keys == s.Keys
    ensures forall k | k in s && Eligible(s[k], now) ::
              && r.0[k].employmentStatus.status == Some(Permanent)
              && r.0[k].employmentStatus.autoUpdated
              && SameExceptStatusAndFlag(s[k], r.0[k])
    ensures forall k | k in s && !Eligible(s[k], now) :: r.0[k] == s[k]
    ensures r.1 == |set k | k in s && Eligible(s[k], now)|
  {
    (map k | k in s :: if Eligible(s[k], now) then PromoteRecord(s[k]) else s[k],
     |Selected(s, now)|)
  }

  /** The first run leaves no record eligible at the same instant. */
  lemma {:induction false} NoneEligibleAfterPromote(s: Store, now: Millis)
    ensures Selected(Promote(s, now).0, now) == {}
  {
    var t := Promote(s, now).0;
    forall k | k in t
      ensures !Eligible(t[k], now)
    {
      assert k in s;
    }
  }

  /** Running the rule twice at the same time is running it once, and the
      second run modifies nothing. */
  lemma {:induction false} PromoteIdempotent(s: Store, now: Millis)
    ensures Promote(Promote(s, now).0, now).0 == Promote(s, now).0
    ensures Promote(Promote(s, now).0, now).1 == 0
  {
    var t := Promote(s, now).0;
    NoneEligibleAfterPromote(s, now);
    assert forall k | k in t :: !Eligible(t[k], now);
    assert Promote(t, now).0 == t;
  }

  /** A later run selects everything an earlier run would have selected. */
  lemma SelectedMonotoneInTime(s: Store, t1: Millis, t2: Millis)
    requires t1 <= t2
    ensures Selected(s, t1) <= Selected(s, t2)
  {
  }

  /** A run that was missed is made up by the next one: running at `t1`
      then at a later `t2` ends in the same store as a single run at `t2`. */
  lemma {:induction false} CatchUp(s: Store, t1: Millis, t2: Millis)
    requires t1 <= t2
    ensures Promote(Promote(s, t1).0, t2).0 == Promote(s, t2).0
  {
    var a := Promote(s, t1).0;
    var b := Promote(a, t2).0;
    var c := Promote(s, t2).0;
    forall k | k in s
      ensures b[k] == c[k]
    {
      if Eligible(s[k], t1) {
        assert !Eligible(a[k], t2);
        assert Eligible(s[k], t2);
      } else if Eligible(s[k], t2) {
        assert a[k] == s[k];
      } else {
        assert a[k] == s[k];
      }
    }
  }

  /** A record whose probation ends exactly now is promoted now, in any
      store; alone in a store, it is the one record counted. */
  lemma BoundaryIsPromoted(s: Store, k: string, now: Millis)
    requires k in s
    requires s[k].employmentStatus == EmploymentStatus(Some(Probation), s[k].employmentStatus.startDate, Some(now), false)
    ensures Promote(s, now).0[k] == PromoteRecord(s[k])
    ensures Promote(map[k := s[k]], now) == (map[k := PromoteRecord(s[k])], 1)
  {
    var t := map[k := s[k]];
    assert Selected(t, now) == {k};
    assert Promote(t, now).0 == map[k := PromoteRecord(s[k])];
  }

  /** A probation record without an end date is never promoted, whatever
      the time. */
  lemma NoEndDateNeverPromoted(s: Store, k: string, now: Millis)
    requires k in s && s[k].employmentStatus.probationEndDate.None?
    ensures Promote(s, now).0[k] == s[k]
  {
  }

  /** The rule keeps the store keyed and every record valid. */
  lemma {:induction false} PromotePreservesValid(s: Store, now: Millis)
    requires ValidStore(s)
    ensures ValidStore(Promote(s, now).0)
  {
    var t := Promote(s, now).0;
    forall k | k in t
      ensures t[k].employeeId == k && HasRequired(t[k])
    {
      assert k in s;
    }
  }

  // ---------------------------------------------------------------------
  // The two drivers.

  /** What the daily job leaves in the server log. */
  datatype TickLog = Quiet | UpdatedCount(count: nat) | ErrorLogged(message: string)

  /** The cron callback: run the rule; report the count only when it is
      positive; a store failure (`fault`) is caught and logged, the store
      is unchanged and nothing propagates. */
  function CronTick(s: Store, now: Millis, fault: Option<string>): (r: (Store, TickLog))
    ensures fault.Some? ==> r == (s, ErrorLogged(fault.value))
    ensures fault.None? ==> r.0 == Promote(s, now).0
    ensures fault.None? ==> (r.1 == Quiet <==> Selected(s, now) == {})
    ensures r.1.UpdatedCount? ==> r.1.count == |Selected(s, now)| > 0
    ensures fault.None? ==> r.1 == if Selected(s, now) == {} then Quiet else UpdatedCount(|Selected(s, now)|)
  {
    if fault.Some? then (s, ErrorLogged(fault.value))
    else
      var (t, n) := Promote(s, now);
      (t, if n > 0 then UpdatedCount(n) else Quiet)
  }

  datatype CronReply = CronReply(status: int, message: string, updated: Option<nat>)

  /** The serverless handler: only GET runs the rule (anything else is 405
      and touches nothing); success is 200 with the count, a store failure
      is 500 with its message. */
  function Handle(verb: string, s: Store, now: Millis, fault: Option<string>): (r: (Store, CronReply))
    ensures verb != "GET" ==> r == (s, CronReply(405, "Method not allowed", None))
    ensures verb == "GET" && fault.Some? ==> r == (s, CronReply(500, fault.value, None))
    ensures verb == "GET" && fault.None? ==>
              && r.0 == Promote(s, now).0
              && r.1 == CronReply(200, "Probation check completed", Some(|Selected(s, now)|))
  {
    if verb != "GET" then (s, CronReply(405, "Method not allowed", None))
    else if fault.Some? then (s, CronReply(500, fault.value, None))
    else
      var (t, n) := Promote(s, now);
      (t, CronReply(200, "Probation check completed", Some(n)))
  }

  /** Both deployments end in the same store from the same input and time. */
  lemma SameOutcomeBothDrivers(s: Store, now: Millis, fault: Option<string>)
    ensures Handle("GET", s, now, fault).0 == CronTick(s, now, fault).0
  {
  }

  /** Calling the endpoint again right away reports zero and changes nothing. */
  lemma {:induction false} RetriggerReportsZero(s: Store, now: Millis)
    ensures var t := Handle("GET", s, now, None).0;
            Handle("GET", t, now, None) == (t, CronReply(200, "Probation check completed", Some(0)))
  {
    PromoteIdempotent(s, now);
  }
}

=== FILE: upload.dfy ===
/** Upload handling (server/src/middleware/upload.ts): which files are
    accepted, the size cap, and the name under which an accepted file is
    stored. The random/time-based suffix and the upload directory are
    parameters; the disk write itself is not modelled. */
module Upload {
  import opened Common

  /** 10 MiB. */
  const MaxFileSize: int := 10 * 1024 * 1024

  const Pdf: string := "application/pdf"
  const Msword: string := "application/msword"
  const Docx: string := "application/vnd.openxmlformats-officedocument.wordprocessingml.document"

  const InvalidTypeMessage: string := "Invalid file type! Only Images, PDF and Word documents are allowed."

  /** The `fileFilter` test: any "image/" type, or one of three document types. */
  predicate AcceptsMime(mimetype: string) {
    StartsWith(mimetype, "image/") || mimetype == Pdf || mimetype == Msword || mimetype == Docx
  }

  /** What `fileFilter` hands its callback: `(null, true)` or `(error, false)`. */
  datatype FilterVerdict = FilterVerdict(error: Option<string>, accept: bool)

  datatype IncomingFile = IncomingFile(fieldname: string, originalname: string, mimetype: string, size: nat)

  function FileFilter(file: IncomingFile): (v: FilterVerdict)
    ensures v.accept <==> AcceptsMime(file.mimetype)
    ensures v.accept ==> v.error.None?
    ensures !v.accept ==> v.error == Some(InvalidTypeMessage)
  {
    if AcceptsMime(file.mimetype) then FilterVerdict(None, true)
    else FilterVerdict(Some(InvalidTypeMessage), false)
  }

  /** The verdict depends on the MIME type alone. */
  lemma FilterDependsOnlyOnMime(a: IncomingFile, b: IncomingFile)
    requires a.mimetype == b.mimetype
    ensures FileFilter(a) == FileFilter(b)
  {
  }

  /** Every image type passes; e.g. "image/png". */
  lemma ImagesAccepted(subtype: string)
    ensures FileFilter(IncomingFile("file", "x", "image/" + subtype, 0)).accept
  {
    assert ("image/" + subtype)[..6] == "image/";
  }

  /** Types that are neither images nor the three document types fail. */
  lemma OthersRejected(f: IncomingFile)
    requires !StartsWith(f.mimetype, "image/")
    requires f.mimetype !in {Pdf, Msword, Docx}
    ensures FileFilter(f) == FilterVerdict(Some(InvalidTypeMessage), false)
  {
  }

  // ---------------------------------------------------------------------
  // `path.extname` (POSIX), as the stored name uses it.

  /** The path without trailing '/' characters. */
  function TrimTrailingSlashes(p: string): (r: string)
    ensures |r| <= |p| && r == p[..|r|]
    ensures r == [] || r[|r| - 1] != '/'
    ensures forall i | |r| <= i < |p| :: p[i] == '/'
  {
    if p == [] || p[|p| - 1] != '/' then p
    else TrimTrailingSlashes(p[..|p| - 1])
  }

  /** The last path component (after trailing slashes are dropped). */
  function BaseName(p: string): (b: string)
    ensures '/' !in b
  {
    var t := TrimTrailingSlashes(p);
    match LastIndexOf(t, '/')
    case None => t
    case Some(i) => t[i + 1..]
  }

  /** `path.extname(p)`: from the last '.' of the base name to its end;
      empty when the base name has no '.', when its last '.' is its first
      character (".bashrc"), or when it is "..". */
  function ExtName(p: string): (r: string)
    ensures r == [] || (r[0] == '.' && '.' !in r[1..] && '/' !in r)
    ensures var b := BaseName(p);
      r != [] <==> (match LastIndexOf(b, '.') case None => false case Some(d) => d != 0 && b != "..")
    ensures var b := BaseName(p); r != [] ==> |r| <= |b| && r == b[|b| - |r|..]
  {
    var b := BaseName(p);
    match LastIndexOf(b, '.')
    case None => ""
    case Some(d) => if d == 0 || b == ".." then "" else b[d..]
  }

  /** A plain "stem.ext" name yields ".ext". */
  lemma ExtNameOfPlainName(stem: string, ext: string)
    requires stem != [] && '/' !in stem && '/' !in ext && '.' !in ext
    requires stem + "." + ext != ".."
    ensures ExtName(stem + "." + ext) == "." + ext
  {
    var p := stem + "." + ext;
    assert p[|stem|] == '.';
    assert p[|stem| + 1..] == ext;
    assert TrimTrailingSlashes(p) == p by {
      if ext == [] { assert p[|p| - 1] == '.'; } else { assert p[|p| - 1] == ext[|ext| - 1]; }
    }
    assert '/' !in p by {
      forall i | 0 <= i < |p| ensures p[i] != '/' {
        if i < |stem| { assert p[i] == stem[i]; }
        else if i > |stem| { assert p[i] == ext[i - |stem| - 1]; }
      }
    }
    assert BaseName(p) == p;
    assert LastIndexOf(p, '.') == Some(|stem|);
  }

  /** A name with no '.' at all has no extension. */
  lemma ExtNameWithoutDot(p: string)
    requires '.' !in p
    ensures ExtName(p) == ""
  {
    var b := BaseName(p);
    var t := TrimTrailingSlashes(p);
    assert forall i | 0 <= i < |t| :: t[i] == p[i];
    match LastIndexOf(t, '/')
    case None =>
    case Some(i) => assert forall j | 0 <= j < |b| :: b[j] == t[i + 1 + j];
  }

  /** multer's `filename` callback: `fieldname-suffix.ext`, where the suffix
      (time and a random number in the source) is supplied by the caller. */
  function StoredName(fieldname: string, suffix: string, originalname: string): (n: string)
    ensures StartsWith(n, fieldname + "-")
    ensures |n| == |fieldname| + 1 + |suffix| + |ExtName(originalname)|
    ensures n[|fieldname| + 1..|fieldname| + 1 + |suffix|] == suffix
    ensures n[|n| - |ExtName(originalname)|..] == ExtName(originalname)
  {
    fieldname + "-" + suffix + ExtName(originalname)
  }

  /** Two stored names from the same field and original name differ
      whenever their suffixes differ. */
  lemma StoredNameInjective(fieldname: string, s1: string, s2: string, originalname: string)
    requires StoredName(fieldname, s1, originalname) == StoredName(fieldname, s2, originalname)
    ensures s1 == s2
  {
    var n := StoredName(fieldname, s1, originalname);
    assert |s1| == |s2|;
    assert s1 == n[|fieldname| + 1..|fieldname| + 1 + |s1|];
  }

  // ---------------------------------------------------------------------
  // The multer pipeline for one file.

  datatype UploadError = UnexpectedField(field: string) | InvalidType(message: string) | FileTooLarge

  datatype StoredFile = StoredFile(originalname: string, filename: string, path: string, size: nat)

  datatype UploadResult = Stored(file: StoredFile) | Rejected(error: UploadError)

  /** `upload.single(field)` for one file part: a part in any other form
      field is refused first (multer's "Unexpected field"), then
      `fileFilter`, then the size limit while the file is written to `dir`
      under its stored name. The stored path is `dir`, '/', the name: what
      `path.join` gives for an already normalised directory without a
      trailing '/', as both of the app's upload directories are; the
      normalisation `path.join` would apply to other directories is not
      modelled. */
  function Receive(field: string, file: IncomingFile, dir: string, suffix: string): (r: UploadResult)
    ensures r.Stored? <==> file.fieldname == field && AcceptsMime(file.mimetype) && file.size <= MaxFileSize
    ensures file.fieldname != field ==> r == Rejected(UnexpectedField(file.fieldname))
    ensures file.fieldname == field && !AcceptsMime(file.mimetype) ==> r == Rejected(InvalidType(InvalidTypeMessage))
    ensures file.fieldname == field && AcceptsMime(file.mimetype) && file.size > MaxFileSize ==> r == Rejected(FileTooLarge)
    ensures r.Stored? ==>
              && r.file.originalname == file.originalname
              && r.file.filename == StoredName(file.fieldname, suffix, file.originalname)
              && r.file.path == dir + "/" + r.file.filename
  {
    var v := FileFilter(file);
    if file.fieldname != field then Rejected(UnexpectedField(file.fieldname))
    else if !v.accept then Rejected(InvalidType(v.error.GetOr(InvalidTypeMessage)))
    else if file.size > MaxFileSize then Rejected(FileTooLarge)
    else
      var name := StoredName(file.fieldname, suffix, file.originalname);
      Stored(StoredFile(file.originalname, name, dir + "/" + name, file.size))
  }
}

=== FILE: wizard.dfy ===
/** The add/edit employee wizard's form state
    (client/src/pages/PIM/AddEmployeeWizard.tsx): step navigation, the
    change handler's routing into sections, adding and removing contact and
    dependent rows, and the normalisation of a fetched record in edit mode.
    Form values are JSON-shaped, as the component's state object is. */
module Wizard {
  import opened Common

  // ---------------------------------------------------------------------
  // Steps

  const FirstStep: int := 1
  const LastStep: int := 4

  predicate ValidStep(step: int) {
    FirstStep <= step <= LastStep
  }

  /** Back: `Math.max(1, s - 1)`. */
  function Back(step: int): (r: int)
    ensures r == step - 1 || r == FirstStep
    ensures r >= FirstStep
    ensures step > FirstStep ==> r == step - 1
    ensures ValidStep(step) ==> ValidStep(r)
  {
    if step - 1 >= FirstStep then step - 1 else FirstStep
  }

  /** Next: `Math.min(4, s + 1)`. */
  function Next(step: int): (r: int)
    ensures r == step + 1 || r == LastStep
    ensures r <= LastStep
    ensures step < LastStep ==> r == step + 1
    ensures ValidStep(step) ==> ValidStep(r)
  {
    if step + 1 <= LastStep then step + 1 else LastStep
  }

  datatype Click = BackClick | NextClick

  function Navigate(step: int, clicks: seq<Click>): int
    decreases |clicks|
  {
    if clicks == [] then step
    else Navigate(if clicks[0] == BackClick then Back(step) else Next(step), clicks[1..])
  }

  /** Starting from step 1, no sequence of Back/Next clicks leaves [1, 4]. */
  lemma {:induction false} NavigationStaysInRange(step: int, clicks: seq<Click>)
    requires ValidStep(step)
    ensures ValidStep(Navigate(step, clicks))
    decreases |clicks|
  {
    if clicks != [] {
      NavigationStaysInRange(if clicks[0] == BackClick then Back(step) else Next(step), clicks[1..]);
    }
  }

  /** Next then Back returns to the same step below the last one, and
      Back then Next above the first one. */
  lemma BackUndoesNext(step: int)
    requires ValidStep(step)
    ensures step < LastStep ==> Back(Next(step)) == step
    ensures step > FirstStep ==> Next(Back(step)) == step
  {
  }

  // ---------------------------------------------------------------------
  // Form state

  type Fields = map<string, Json>

  datatype FormData = FormData(
    top: Fields,                  // personal fields and whatever else is spread in
    address: Fields,
    jobInfo: Fields,
    employmentStatus: Fields,
    emergencyContacts: seq<Json>,
    dependents: seq<Json>,
    files: seq<string>)

  function Blank(keys: seq<string>): (f: Fields)
    ensures f.Keys == set k | k in keys
    ensures forall k | k in f :: f[k] == JStr("")
  {
    map k | k in keys :: JStr("")
  }

  const BlankContact: Json := JObj(Blank(["name", "relation", "phone"]))
  const BlankDependent: Json := JObj(Blank(["name", "relation", "dateOfBirth"]))

  /** The form's first state. */
  function InitialForm(): (f: FormData)
    ensures "status" in f.employmentStatus && f.employmentStatus["status"] == JStr("Probation")
    ensures "autoUpdated" in f.employmentStatus && f.employmentStatus["autoUpdated"] == JBool(false)
    ensures f.emergencyContacts == [BlankContact] && f.dependents == [BlankDependent]
    ensures f.files == []
  {
    FormData(
      Blank(["employeeId", "firstName", "middleName", "lastName", "email", "phone",
             "dateOfBirth", "gender", "maritalStatus", "nationality", "userId"]),
      Blank(["street", "city", "state", "zipCode", "country"]),
      Blank(["designation", "department", "reportingManager", "employmentType", "workLocation", "joiningDate"]),
      map["status" := JStr("Probation"), "startDate" := JStr(""), "autoUpdated" := JBool(false)],
      [BlankContact], [BlankDependent], [])
  }

  // ---------------------------------------------------------------------
  // handleChange

  /** The row update `row[subfield] = value`, which needs the row to be an
      object (anything else throws). */
  function SetInRow(rows: seq<Json>, index: int, subfield: string, value: string): (r: Option<seq<Json>>)
    ensures r.Some? <==> 0 <= index < |rows| && rows[index].JObj?
    ensures r.Some? ==> |r.value| == |rows|
    ensures r.Some? ==> r.value[index] == JObj(rows[index].fields[subfield := JStr(value)])
    ensures r.Some? ==> forall i | 0 <= i < |rows| && i != index :: r.value[i] == rows[i]
  {
    if 0 <= index < |rows| && rows[index].JObj? then
      Some(rows[index := JObj(rows[index].fields[subfield := JStr(value)])])
    else None
  }

  /** `handleChange(e, section?, index?, subfield?)` with `e.target` =
      `{name, value}`. A named section gets `[name]: value`; the two row
      arrays get `[subfield]: value` in row `index` when both are given;
      everything else sets a top-level field. `None` stands for the
      TypeError a missing row raises. */
  function HandleChange(f: FormData, section: Option<string>, index: Option<int>, subfield: Option<string>,
                        name: string, value: string): (r: Option<FormData>)
    ensures section == Some("address") ==> r == Some(f.(address := f.address[name := JStr(value)]))
    ensures section == Some("jobInfo") ==> r == Some(f.(jobInfo := f.jobInfo[name := JStr(value)]))
    ensures section == Some("employmentStatus") ==>
              r == Some(f.(employmentStatus := f.employmentStatus[name := JStr(value)]))
    ensures section == Some("emergencyContacts") && index.Some? && Truthy(subfield) ==>
              var rows := SetInRow(f.emergencyContacts, index.value, subfield.value, value);
              (rows.None? ==> r.None?) && (rows.Some? ==> r == Some(f.(emergencyContacts := rows.value)))
    ensures section == Some("dependents") && index.Some? && Truthy(subfield) ==>
              var rows := SetInRow(f.dependents, index.value, subfield.value, value);
              (rows.None? ==> r.None?) && (rows.Some? ==> r == Some(f.(dependents := rows.value)))
    ensures section !in {Some("address"), Some("jobInfo"), Some("employmentStatus"), Some("emergencyContacts"), Some("dependents")} ==>
              r == Some(f.(top := f.top[name := JStr(value)]))
    ensures section in {Some("emergencyContacts"), Some("dependents")} && (index.None? || !Truthy(subfield)) ==>
              r == Some(f.(top := f.top[name := JStr(value)]))
  {
    if section == Some("address") then Some(f.(address := f.address[name := JStr(value)]))
    else if section == Some("jobInfo") then Some(f.(jobInfo := f.jobInfo[name := JStr(value)]))
    else if section == Some("employmentStatus") then
      Some(f.(employmentStatus := f.employmentStatus[name := JStr(value)]))
    else if section == Some("emergencyContacts") && index.Some? && Truthy(subfield) then
      match SetInRow(f.emergencyContacts, index.value, subfield.value, value)
      case None => None
      case Some(rows) => Some(f.(emergencyContacts := rows))
    else if section == Some("dependents") && index.Some? && Truthy(subfield) then
      match SetInRow(f.dependents, index.value, subfield.value, value)
      case None => None
      case Some(rows) => Some(f.(dependents := rows))
    else Some(f.(top := f.top[name := JStr(value)]))
  }

  /** A change in a section touches that one entry and nothing else. */
  lemma SectionChangeIsLocal(f: FormData, name: string, value: string)
    ensures var r := HandleChange(f, Some("address"), None, None, name, value).value;
            && r.address[name] == JStr(value)
            && (forall k | k in f.address && k != name :: k in r.address && r.address[k] == f.address[k])
            && r.(address := f.address) == f
  {
  }

  // ---------------------------------------------------------------------
  // Row arrays

  datatype ArrayField = Contacts | Dependents

  function Rows(f: FormData, field: ArrayField): seq<Json> {
    if field == Contacts then f.emergencyContacts else f.dependents
  }

  function WithRows(f: FormData, field: ArrayField, rows: seq<Json>): FormData {
    if field == Contacts then f.(emergencyContacts := rows) else f.(dependents := rows)
  }

  /** `addArrayItem`: one blank row at the end of the named array; the
      other array and the rest of the form are unchanged. */
  function AddArrayItem(f: FormData, field: ArrayField): (r: FormData)
    ensures Rows(r, field) == Rows(f, field) + [if field == Contacts then BlankContact else BlankDependent]
    ensures WithRows(r, field, Rows(f, field)) == f
  {
    if field == Contacts then f.(emergencyContacts := f.emergencyContacts + [BlankContact])
    else f.(dependents := f.dependents + [BlankDependent])
  }

  /** `filter((_, i) => i !== index)`: drops the one element at `index`
      (nothing when out of range) and keeps the rest in order. */
  function RemoveAt(s: seq<Json>, index: int): (r: seq<Json>)
    ensures 0 <= index < |s| ==> |r| == |s| - 1
    ensures 0 <= index < |s| ==> forall i | 0 <= i < |r| :: r[i] == if i < index then s[i] else s[i + 1]
    ensures !(0 <= index < |s|) ==> r == s
  {
    if 0 <= index < |s| then s[..index] + s[index + 1..] else s
  }

  function RemoveArrayItem(f: FormData, field: ArrayField, index: int): (r: FormData)
    ensures Rows(r, field) == RemoveAt(Rows(f, field), index)
    ensures WithRows(r, field, Rows(f, field)) == f
  {
    WithRows(f, field, RemoveAt(Rows(f, field), index))
  }

  /** Removing the row just added gives back the form. */
  lemma {:induction false} RemoveUndoesAdd(f: FormData, field: ArrayField)
    ensures RemoveArrayItem(AddArrayItem(f, field), field, |Rows(f, field)|) == f
  {
    var rows := Rows(f, field);
    var added := Rows(AddArrayItem(f, field), field);
    assert RemoveAt(added, |rows|) == rows;
  }

  // ---------------------------------------------------------------------
  // Edit mode

  /** The first record whose `key` equals `JStr(id)`. */
  function FindBy(data: seq<Fields>, key: string, id: string): (r: Option<Fields>)
    ensures r.None? <==> forall i | 0 <= i < |data| :: !(key in data[i] && data[i][key] == JStr(id))
    ensures r.Some? ==> exists i | 0 <= i < |data| :: r.value == data[i] && key in data[i] && data[i][key] == JStr(id)
                          && forall j | 0 <= j < i :: !(key in data[j] && data[j][key] == JStr(id))
  {
    if data == [] then None
    else if key in data[0] && data[0][key] == JStr(id) then Some(data[0])
    else
      var r := FindBy(data[1..], key, id);
      if r.Some? then
        ghost var i :| 0 <= i < |data[1..]| && r.value == data[1..][i] && key in data[1..][i]
                       && data[1..][i][key] == JStr(id)
                       && forall j | 0 <= j < i :: !(key in data[1..][j] && data[1..][j][key] == JStr(id));
        assert r.value == data[i + 1];
        r
      else None
  }

  /** The record to edit: by `employeeId` first, by `_id` only when no
      record has that `employeeId`. */
  function Lookup(data: seq<Fields>, id: string): (r: Option<Fields>)
    ensures FindBy(data, "employeeId", id).Some? ==> r == FindBy(data, "employeeId", id)
    ensures FindBy(data, "employeeId", id).None? ==> r == FindBy(data, "_id", id)
  {
    var byBusinessKey := FindBy(data, "employeeId", id);
    if byBusinessKey.Some? then byBusinessKey else FindBy(data, "_id", id)
  }

  /** A date for an `<input type="date">`: the part of a non-empty string
      before the first 'T'; "" for a missing or empty value. */
  function DateInput(v: Option<Json>): (r: string)
    ensures 'T' !in r
    ensures v.Some? && v.value.JStr? ==> |r| <= |v.value.s| && r == v.value.s[..|r|]
    ensures v.Some? && v.value.JStr? && |r| < |v.value.s| ==> v.value.s[|r|] == 'T'
    ensures v.Some? && v.value.JStr? && 'T' !in v.value.s ==> r == v.value.s
    ensures !(v.Some? && v.value.JStr?) ==> r == ""
  {
    if v.Some? && v.value.JStr? && v.value.s != "" then Before(v.value.s, 'T') else ""
  }

  /** Cutting a value already cut changes nothing: a form reopened from its
      own dates shows the same dates. */
  lemma DateInputIdempotent(v: Option<Json>)
    ensures DateInput(Some(JStr(DateInput(v)))) == DateInput(v)
  {
    if v.Some? && v.value.JStr? && v.value.s != "" {
      BeforeIdempotent(v.value.s, 'T');
    }
  }

  /** An ISO timestamp becomes its date part. */
  lemma IsoDateTruncated(date: string, time: string)
    requires 'T' !in date
    ensures DateInput(Some(JStr(date + "T" + time))) == date
  {
    var s := date + "T" + time;
    var r := Before(s, 'T');
    assert s[|date|] == 'T';
    assert r == s[..|date|] == date;
  }

  function Get(m: Fields, k: string): Option<Json> {
    if k in m then Some(m[k]) else None
  }

  /** `typeof status === 'string'` gives the three-field object; an object
      is taken as it is; anything else keeps the form's default. */
  function EditStatus(prev: Fields, v: Option<Json>): (r: Fields)
    ensures v.Some? && v.value.JStr? ==>
              r == map["status" := v.value, "startDate" := JStr(""), "autoUpdated" := JBool(false)]
    ensures v.Some? && v.value.JObj? ==> r == v.value.fields
    ensures !(v.Some? && (v.value.JStr? || v.value.JObj?)) ==> r == prev
  {
    if v.Some? && v.value.JStr? then map["status" := v.value, "startDate" := JStr(""), "autoUpdated" := JBool(false)]
    else if v.Some? && v.value.JObj? then v.value.fields
    else prev
  }

  /** A non-empty array from the record, else the form's rows. */
  function RowsOr(v: Option<Json>, prev: seq<Json>): (r: seq<Json>)
    ensures v.Some? && v.value.JArr? && v.value.items != [] ==> r == v.value.items
    ensures !(v.Some? && v.value.JArr? && v.value.items != []) ==> r == prev
  {
    if v.Some? && v.value.JArr? && v.value.items != [] then v.value.items else prev
  }

  const SectionKeys: set<string> :=
    {"address", "jobInfo", "employmentStatus", "emergencyContacts", "dependents", "files"}

  /** The state set from a fetched record: `{...prev, ...found}` with the
      sections rebuilt and the two dates cut to their date part. */
  function EditForm(prev: FormData, found: Fields): (r: FormData)
    ensures forall k | k in found && k !in SectionKeys && k != "dateOfBirth" :: k in r.top && r.top[k] == found[k]
    ensures forall k | k in prev.top && k !in found && k != "dateOfBirth" :: k in r.top && r.top[k] == prev.top[k]
    ensures "dateOfBirth" in r.top && r.top["dateOfBirth"] == JStr(DateInput(Get(found, "dateOfBirth")))
    ensures r.employmentStatus == EditStatus(prev.employmentStatus, Get(found, "employmentStatus"))
    ensures "joiningDate" in r.jobInfo && r.jobInfo["joiningDate"] ==
              JStr(DateInput(if "jobInfo" in found && found["jobInfo"].JObj? then Get(found["jobInfo"].fields, "joiningDate") else None))
    // the rest of job info is `{...prev.jobInfo, ...found.jobInfo}`
    ensures var foundJob := if "jobInfo" in found && found["jobInfo"].JObj? then found["jobInfo"].fields else map[];
            forall k | k != "joiningDate" ::
              && (k in r.jobInfo <==> k in prev.jobInfo || k in foundJob)
              && (k in r.jobInfo ==> r.jobInfo[k] == if k in foundJob then foundJob[k] else prev.jobInfo[k])
    ensures forall k | k in r.top :: k in prev.top || k in found || k == "dateOfBirth"
    ensures "address" in found && found["address"].JObj? ==> r.address == found["address"].fields
    ensures !("address" in found && found["address"].JObj?) ==> r.address == prev.address
    ensures r.emergencyContacts == RowsOr(Get(found, "emergencyContacts"), prev.emergencyContacts)
    ensures r.dependents == RowsOr(Get(found, "dependents"), prev.dependents)
    ensures r.files == prev.files
  {
    var spread := map k | k in found && k !in SectionKeys :: found[k];
    var foundJob := if "jobInfo" in found && found["jobInfo"].JObj? then found["jobInfo"].fields else map[];
    FormData(
      (prev.top + spread)["dateOfBirth" := JStr(DateInput(Get(found, "dateOfBirth")))],
      if "address" in found && found["address"].JObj? then found["address"].fields else prev.address,
      (prev.jobInfo + foundJob)["joiningDate" := JStr(DateInput(Get(foundJob, "joiningDate")))],
      EditStatus(prev.employmentStatus, Get(found, "employmentStatus")),
      RowsOr(Get(found, "emergencyContacts"), prev.emergencyContacts),
      RowsOr(Get(found, "dependents"), prev.dependents),
      prev.files)
  }

  /** A legacy record whose status is a bare string opens as "status with
      empty start date, not auto-updated". */
  lemma LegacyStatusNormalised(prev: FormData, found: Fields, s: string)
    requires "employmentStatus" in found && found["employmentStatus"] == JStr(s)
    ensures EditForm(prev, found).employmentStatus["status"] == JStr(s)
    ensures EditForm(prev, found).employmentStatus["startDate"] == JStr("")
    ensures EditForm(prev, found).employmentStatus["autoUpdated"] == JBool(false)
  {
  }
}
